=== FILE: README.md ===
# A verified model of the muon_lang lexer

`lang/sc.c` holds the hand-written lexer of a small C-like language. It reads a file one
character at a time and hands out tokens on demand. This project models that lexer in Dafny and
proves properties of the model:

- the character classes;
- the backtracking token matchers (`lexer_identifier`, `lexer_integer`, `lexer_float`,
  `lexer_string`, `lexer_keyword`) and `char_skip`;
- the operator and keyword tables (`OP_LIST`, `KEYWORD_LIST`);
- the lexer object (`lexer_crt`, `lexer_next`, `lexer_rewind`, `lexer_peek`) with its two token
  stacks.

The `FILE*` is replaced by the whole input as a `string` and a cursor (`nat`). Token stacks are
sequences whose element 0 is the top.

Modules:

| file | module | contents |
|---|---|---|
| wrappers.dfy | Wrappers | `Option`, `Result` |
| chars.dfy | Chars | `is_num`, `is_alpha`, `is_alpha_num`, `is_str`, the skip set |
| stack.dfy | Stack | `stack_push` / `stack_pop` on sequences |
| tokens.dfy | Tokens | `token_t`, `KEYWORD_LIST`, `OP_LIST` and facts about the tables |
| matchers.dfy | Matchers | each matcher as a closed-form function returning `Match(token, next)`, `NoMatch` or `Fatal(fault)` |
| cursor.dfy | Cursor | each matcher as a method that reads character by character, with the source's consumed-character count `rc` and its seek back; each method is proved equal to its closed form |
| rules.dfy | Rules | the order in which `lexer_next` tries the matchers, and what that order implies |
| lexer.dfy | Lexer | `lexer_t` and its operations, replay after rewind, and the defects listed under Findings |

A `panic` in the source ends the process. Here it is the outcome `Fatal(fault)` of a matcher and
`Abort(fault)` of a lexer step. A null token is `None`.

The lemmas in Rules and the lexer-level examples are stated for every pair of tables of the
source's shape. These are an operator table whose spellings start with operator characters
(`SymbolTable`) and a keyword table of letter words (`WordTable`). `Rules.SourceTables` shows that
the source's own tables have that shape. `Lexer.Start` builds the lexer over such a pair of tables,
and over the source's tables it is exactly `Lexer.Init`.

Facts about the code that the model keeps:

- `lexer_float` accepts `5.`, a decimal point with no fraction digits.
- The matcher order is hard-wired in `lexer_next` (lines 391-402).
- The end-of-input and whitespace behaviour of `lexer_next` is modelled as written, including the
  defects below. Corrected versions (`NextCorrected`, `PeekCorrected`) sit beside it.

Some definitions transcribe a few source lines and have no row of their own. Their meaning is
stated by the members in the table that use them:

- `Stack.Push` is `stack_push` (lines 43-59); see `Stack.Pop` and `Stack.PushThenPop`.
- `Matchers.EndPeek` is the cursor after `char_peek` at end of input (lines 238-242); see
  `Lexer.Next` and `Lexer.NullAtEndThenAbort`.
- `Rules.FixedRules` is the X-macro expansion (lines 393-398); see `Rules.RulesLayout`.
- `Lexer.Init` is `lexer_crt` (lines 360-365); see `Lexer.InitNothingToRewind`.
- `Lexer.Start` is `Lexer.Init` over any pair of tables of the source's shape.
- `Lexer.Record` is `set_res` (lines 374-378); see `Lexer.RecordThenPop`.
- `Lexer.Read` is the matcher cascade of lines 391-404 after `char_skip`; see `Lexer.ReadsToken`,
  `Lexer.ReadsNull` and `Lexer.ReadsFatal`.
- `Lexer.Replay` is the pop from `from` at line 385; see `Lexer.ReplayThenRewind` and
  `Lexer.ReplayFrom`.
- `Lexer.Peek` is `lexer_peek` (lines 417-421); see `Lexer.PeekTransparent` and
  `Lexer.PeekAfterNullRequeues`.

## Model

| member | source | states |
|---|---|---|
| Stack.Pop | lang/sc.c:61-68 | pop returns nothing exactly when the stack is empty, and then leaves it alone; otherwise it returns the top, and pushing it back rebuilds the stack |
| Stack.PushThenPop | lang/sc.c:50-68 | popping right after a push returns the pushed object and restores the stack |
| Stack.Reverse | lang/sc.c:408-415 | popping a segment one element at a time onto another stack puts element i at position length-1-i |
| Stack.ReverseReverse | lang/sc.c:408-415 | moving a segment across twice restores its order |
| Chars.AlphaNumSplits | lang/sc.c:260-273 | an identifier character is a start character or a digit, and no start character is a digit |
| Chars.SkipInsideString | lang/sc.c:275-278 | the blank is the only skipped whitespace allowed inside a string literal |
| Tokens.OperatorsLongerFirst | lang/sc.c:86-132 | whenever one operator spelling is a proper prefix of another, the longer one is listed first |
| Tokens.OperatorStartsAreSymbols | lang/sc.c:86-132 | no operator starts with a letter, digit, underscore or double quote |
| Tokens.OperatorsAreSymbols | lang/sc.c:86-132 | every operator spelling is non-empty and starts with an operator character |
| Tokens.KeywordsAreWords | lang/sc.c:74-84 | every keyword is a non-empty word of letters |
| Matchers.RunEnd | lang/sc.c:293-295 | the longest run of a class from a position: every character inside belongs, and the character after it does not or there is none |
| Matchers.RunEndUnique | lang/sc.c:293-295 | the run end is the only position with those two properties |
| Matchers.Skip | lang/sc.c:248-258 | success gives the number of whitespace characters before a non-whitespace character; whitespace up to the end of input is fatal |
| Matchers.Identifier | lang/sc.c:289-300 | mismatch exactly at a character that cannot start an identifier; a match is a start character followed by the maximal identifier run, at most 1024 long, and the token text is that run |
| Matchers.IdentifierMatches | lang/sc.c:289-300 | a start character followed by a maximal identifier run that fits the buffer and is followed by a character is lexed as that identifier |
| Matchers.IdentifierFatal | lang/sc.c:289-300 | the matcher panics exactly at end of input, or when the run outgrows the buffer or reaches end of input |
| Matchers.Integer | lang/sc.c:302-313 | a match is a maximal digit run followed by neither `.` nor `f`, valued in decimal; a mismatch at a digit means the run is followed by `.` or `f` |
| Matchers.IntegerMatches | lang/sc.c:302-313 | a digit run that fits the buffer and is followed by a character other than `.` and `f` is lexed as an integer with the run's decimal value |
| Matchers.IntegerDefers | lang/sc.c:302-313 | a digit run that fits the buffer and is followed by `.` or `f` is a mismatch, left to the float matcher |
| Matchers.DigitRunFatal | lang/sc.c:302-322 | both number matchers panic when the digit run outgrows the buffer or reaches end of input |
| Matchers.Float | lang/sc.c:315-333 | a match is a digit run that fits the buffer, followed by `f` (consumed), or by `.` and a possibly empty maximal digit run; a non-empty fraction keeps the whole literal within the 1024-byte buffer; a mismatch at a digit means the run is followed by neither |
| Matchers.FloatMatchesF | lang/sc.c:315-324 | a digit run that fits the buffer and is followed by `f` is a float with no fraction, and the `f` is consumed |
| Matchers.FloatMatchesDot | lang/sc.c:315-331 | a digit run followed by `.` and a possibly empty digit run that fits the buffer and is followed by a character is a float with that fraction |
| Matchers.FloatFractionFatal | lang/sc.c:325-328 | after the decimal point, a non-empty fraction that runs past the buffer panics as too long, and a fraction that reaches end of input panics at end of file |
| Matchers.FloatDefers | lang/sc.c:315-333 | a digit run that fits the buffer and is followed by anything but `.` or `f` is a mismatch |
| Matchers.StringEnd | lang/sc.c:337-341 | the first position where a literal's text stops: end of input, a non-printable character, or a quote not preceded by a backslash |
| Matchers.StringLiteral | lang/sc.c:335-347 | mismatch exactly when the first character is not a double quote; a match's text runs to the first unescaped quote and holds only printable characters; the "not properly ended" fault means a non-printable character came first |
| Matchers.StringLiteralMatches | lang/sc.c:335-347 | a double quote, then printable text that fits the buffer and ends at a closing quote, is lexed as a string literal holding that text |
| Matchers.StringNonPrintableFatal | lang/sc.c:335-347 | a non-printable character reached inside a literal before the buffer is full is fatal, as a literal not properly ended |
| Matchers.StringLineBreakFatal | lang/sc.c:335-347 | a newline, carriage return or tab inside a literal, reached before the buffer is full, is fatal |
| Matchers.Keyword | lang/sc.c:349-356 | a match exactly when the spelling is present and, for a keyword, not followed by an identifier character; a keyword that ends the input leaves the cursor one back; input ending inside the spelling is fatal |
| Cursor.SkipSpace | lang/sc.c:229-258 | the character loop of char_skip computes Skip and leaves the cursor on the first non-whitespace character |
| Cursor.LexIdentifier | lang/sc.c:280-300 | the character loop computes Identifier and leaves the cursor at the entry on a mismatch and after the token on a match |
| Cursor.ReadDigits | lang/sc.c:307-309 | the digit loop stops one character past the maximal digit run, or reports end of input or an over-long run |
| Cursor.LexInteger | lang/sc.c:280-313 | the character loop computes Integer; a mismatch leaves the cursor at the entry except when the entry is end of input |
| Cursor.LexFloat | lang/sc.c:315-333 | the character loop computes Float, with the same cursor guarantee |
| Cursor.LexString | lang/sc.c:335-347 | the character loop computes StringLiteral; a mismatch leaves the cursor at the entry |
| Cursor.LexKeyword | lang/sc.c:349-356 | the character loop computes Keyword; a mismatch leaves the cursor at the entry |
| Cursor.LexRule | lang/sc.c:391-402 | one matcher call of lexer_next agrees with its closed form |
| Cursor.LexFirst | lang/sc.c:391-404 | trying the rules in order from the cursor each left gives FirstMatch, and a full mismatch leaves the cursor where the rules started |
| Rules.RulesLayout | lang/sc.c:391-402 | operators come first, then keywords, then identifier, integer, float and string |
| Rules.Winner | lang/sc.c:391-402 | the index of the first rule that does not mismatch: every earlier rule mismatches |
| Rules.FirstMatch | lang/sc.c:391-404 | a token read by the cascade ends within the input, after the cursor |
| Rules.FirstMatchMisses | lang/sc.c:391-404 | the cascade mismatches exactly when every rule does; otherwise its outcome is that of the first rule that does not mismatch |
| Rules.KeywordAgrees | lang/sc.c:349-353 | a keyword match or a fatal end of input means the input agreed with the spelling so far |
| Rules.OperatorsMismatch | lang/sc.c:393-395 | no operator applies at a letter, digit or underscore |
| Rules.LongestOperatorWins | lang/sc.c:393-395 | when an operator is present at the cursor, the operator lexed is at least as long as it |
| Rules.NoShorterFirst | lang/sc.c:393-395 | an operator tried before another one that is present, and itself present, is at least as long |
| Rules.KeywordBeatsIdentifier | lang/sc.c:396-398 | a keyword followed by a non-identifier character is lexed as that keyword, not as an identifier |
| Rules.IdentifierWhenNotKeyword | lang/sc.c:396-399 | a maximal identifier run that spells no keyword is lexed as that identifier |
| Rules.KeywordInsideRun | lang/sc.c:349-356 | a keyword does not match a prefix of a longer identifier |
| Rules.NumberDisambiguation | lang/sc.c:400-401 | at a digit the result is the integer unless that mismatches, and then the float, which cannot also mismatch |
| Rules.NoRuleApplies | lang/sc.c:391-404 | at a character that starts no token, every rule mismatches and lexer_next returns null |
| Rules.StringAtQuote | lang/sc.c:391-402 | at a double quote the outcome is that of the string matcher |
| Rules.SourceTables | lang/sc.c:74-132 | the source's tables meet the conditions the lemmas above assume |
| Lexer.RecordThenPop | lang/sc.c:374-378 | a returned token becomes the current token, and popping the read stack gives it back together with the read stack as it was |
| Lexer.Scan | lang/sc.c:387-404 | a returned token is recorded, a null leaves everything but the cursor alone, and a null before end of input means no rule applies there |
| Lexer.Next | lang/sc.c:367-405 | at end of input the result is null and the cursor moves one back; otherwise a pending rewound token is handed out first |
| Lexer.ReplayThenRewind | lang/sc.c:385-415 | rewinding by one right after a replay puts the token back on top of the replay stack and restores the read stack; only the current token differs |
| Lexer.NextCorrected | lang/sc.c:380-385 | a pending token is handed out even at end of input, and end of input leaves the lexer unchanged |
| Lexer.NextVersionsAgree | lang/sc.c:380-389 | the two versions agree before end of input except where only whitespace remains |
| Lexer.CorrectedEndIsStable | lang/sc.c:380-381 | with the corrected version, every call at end of input returns null and changes nothing |
| Lexer.CorrectedTrailingSpace | lang/sc.c:387-389 | with the corrected version, when only whitespace remains, the next call and every call after it return null, with the cursor at the end |
| Lexer.Rewind | lang/sc.c:408-415 | up to n tokens move from the read stack to the replay stack, oldest first, stopping when the read stack is empty |
| Lexer.InitNothingToRewind | lang/sc.c:360-365 | a new lexer has read nothing, so rewinding it by any number of tokens changes nothing |
| Lexer.PeekTransparent | lang/sc.c:417-421 | a peek that returns a token before end of input consumes nothing: the next call returns the same token and reaches the same state as without the peek |
| Lexer.Advance | lang/sc.c:372-405 | either version of lexer_next records a returned token and records nothing for a null |
| Lexer.NextN | lang/sc.c:372-405 | n calls in a row return n results unless one aborts; the tokens among them end up on the read stack newest first, and the last of them is current |
| Lexer.PresentSomes | lang/sc.c:374-378 | a run of results that are all tokens keeps every token when the nulls are dropped |
| Lexer.NextNCons | lang/sc.c:372-405 | n calls are one call followed by n - 1 calls from the lexer it left |
| Lexer.NextNRecords | lang/sc.c:374-378 | after n calls that returned tokens, the read stack holds them newest first and the last one is current |
| Lexer.ReplayOne | lang/sc.c:381-385 | replaying one pending token and then k - 1 more replays k tokens in order |
| Lexer.ReplayFrom | lang/sc.c:381-385 | k calls hand out the top k pending tokens in order without reading input, when input remains or the corrected version is used |
| Lexer.RewindThenReplay | lang/sc.c:381-415 | rewinding n tokens and calling lexer_next n times hands them out in their original order and restores both stacks and the cursor |
| Lexer.ReadRewindReplay | lang/sc.c:372-415 | reading n tokens, rewinding n and reading n again returns the same tokens and reaches the same state |
| Lexer.PeekCorrected | lang/sc.c:417-421 | the corrected peek leaves a consistent lexer |
| Lexer.PeekCorrectedTransparent | lang/sc.c:417-421 | the corrected peek returns what the next call returns, and that call then reaches the same state as without the peek |
| Lexer.NullAgain | lang/sc.c:387-404 | with the corrected version, a call after a null returns the same null from the same place |
| Lexer.TokenAgain | lang/sc.c:408-415 | with the corrected version, rewinding the token just read and reading again returns it and reaches the same state |
| Lexer.ReadsAfterSkip | lang/sc.c:387-404 | with nothing rewound and input left, both versions try the rules where the whitespace ends |
| Lexer.ReadsToken | lang/sc.c:387-404 | with nothing rewound, when a rule matches after the whitespace, both versions return its token and record it |
| Lexer.ReadsNull | lang/sc.c:387-404 | with nothing rewound, when no rule applies after the whitespace, both versions return null with the whitespace consumed |
| Lexer.ReadsFatal | lang/sc.c:387-404 | with nothing rewound, when the first applicable rule is fatal, both versions abort with its fault |
| Lexer.SpaceToEnd | lang/sc.c:248-258 | when only whitespace remains, lexer_next as written aborts with end of file, and the corrected version returns null at the end |
| Lexer.RewoundTokenLostAtEnd | lang/sc.c:381-385 | on `"a"`, a token rewound at end of input is not handed out again |
| Lexer.NullAtEndThenAbort | lang/sc.c:238-242 | on `"a"`, the null at end of input moves the cursor onto the closing quote, and the next call aborts |
| Lexer.KeywordAtEndThenAbort | lang/sc.c:349-356 | on `if` with a keyword table holding `if`, both versions return the keyword with the cursor left on its last letter by `char_peek` at line 354, and the next call aborts at end of file |
| Lexer.TrailingSpaceAborts | lang/sc.c:229-258 | on `"a"` and a newline, the call after the string literal aborts instead of returning null |
| Lexer.PeekAfterNullRequeues | lang/sc.c:417-421 | on `1 #`, a peek that returns null puts the already consumed integer back, and the next call returns it a second time |
| Lexer.PeekCorrectedAfterNull | lang/sc.c:417-421 | on `1 #`, the corrected peek leaves the lexer after the null, and the next call returns null again |
| Lexer.LexesQuotedA | lang/sc.c:335-347 | on `"a"`, the string literal is lexed from the opening quote |
| Lexer.LexesClosingQuote | lang/sc.c:335-347 | on `"a"`, a literal started at the closing quote never closes, so the outcome is a fatal end of input |
| Lexer.LexesQuotedANewline | lang/sc.c:335-347 | on `"a"` and a newline, the string literal is lexed first and only whitespace follows it |
| Lexer.LexesOneHash | lang/sc.c:391-404 | on `1 #`, the integer 1 is lexed first, and no rule applies at `#` |
| Lexer.LexesIf | lang/sc.c:391-404 | on `if`, the keyword wins at the start, and the identifier matcher runs into end of input at the last letter |

## Left out

- File I/O (`fopen`, `fgetc`, `fseek`, `fclose`), `main` and `emit`. The input is a string and the
  file position a cursor. Writing the output file is not modelled.
- The signed `char` comparisons with `EOF`. The model treats end of input as a separate condition,
  so a `0xFF` byte, which the source would take for end of file, is not modelled.
- `strchr` matching the terminating NUL (lines 255 and 310). The input is assumed to contain no NUL
  character.
- Matchers.Integer: the value is the exact decimal value of the digits. The overflow of `strtol`
  into `int` is not modelled.
- Matchers.Float: the value is kept as its whole and fraction digit strings. The floating-point
  conversion of `strtod` and its narrowing to `float` are not modelled.
- Memory management: `malloc`, `free`, `str_new`, `token_copy`, `lexer_clear`, and the write one
  past the end of the 1024-byte buffers. Only the rule that an over-long token is fatal is kept.
- Matchers.StringLiteral: an over-long literal is fatal at the length where the source's loop panics. The
  buffer overrun just before that panic is not modelled.
- `token_print`, which only formats output.
- The AST declarations and the empty parser stubs (`parse_struct`, `parse_var`, `parser_global`),
  which contain no behaviour.
- `lexer_current` (lines 367-369) returns a field. It is the `current` field of `Lexer.Lexer`, and
  its value is stated in the contracts of `RecordThenPop`, `Scan`, `Advance` and `NextNRecords`.
- The four "... too long" panic messages of the matchers are merged into the one fault `TooLong`;
  which message the source prints is not modelled.
- Each `char` of the input stands for one byte read by `fgetc`. Positions in input with non-ASCII
  characters, which take several bytes, are not modelled.
- Token kinds: keyword and operator tokens carry the name of their table line instead of an enum
  value. The names are the source's.
- Lexer.PeekCorrected: its contract only states well-formedness. Its behaviour is stated by
  `PeekCorrectedTransparent` and `PeekCorrectedAfterNull`.
- Lexer.NextN: its contract states the number of results and the stack bookkeeping, not which
  tokens are returned. Those are stated by `ReplayFrom`, `RewindThenReplay` and
  `ReadRewindReplay`.

## Findings

| source | as written | input that shows it | evidently intended | confidence | as-written member | corrected member |
|---|---|---|---|---|---|---|
| lang/sc.c:381-385 | `lexer_next` checks for end of input before it looks at the replay stack | `"a"`: read the string literal, then `lexer_rewind(1)`; the next call returns null, and the rewound token is never handed out | rewound tokens are replayed before any input is read, also at end of input | high, not executed | Lexer.RewoundTokenLostAtEnd | Lexer.ReadRewindReplay |
| lang/sc.c:238-242 | the end-of-input test at line 381 uses `char_peek`, whose seek back by one moves the cursor at end of file onto the last character | `"a"`: after the literal, one call returns null, and the call after it reads the closing quote as a new literal and panics with "end of file" | end of input stays end of input, and every later call returns null | high, not executed | Lexer.NullAtEndThenAbort | Lexer.CorrectedEndIsStable |
| lang/sc.c:248-258 | `char_skip` tests for `EOF` only after `char_next` (lines 229-236), which has already panicked at end of file, so the null return at line 389 cannot happen (except on a `0xFF` byte, which the model leaves out) | `"a"` followed by a newline: the call after the literal panics with "end of file" | trailing whitespace ends the token stream with null | high, not executed | Lexer.TrailingSpaceAborts | Lexer.CorrectedTrailingSpace |
| lang/sc.c:417-421 | `lexer_peek` rewinds by one even when `lexer_next` returned null | `1 #`: after the integer, a peek returns null, and the next call returns the integer 1 a second time | a peek that found no token consumes no token: the next call returns what it would have returned without the peek | high, not executed | Lexer.PeekAfterNullRequeues | Lexer.PeekCorrectedTransparent |

`Lexer.NextCorrected` is the corrected `lexer_next` for the first three rows. It replays before it
checks for end of input. It does not move the cursor at end of input. It returns null when only
whitespace remains. `Lexer.PeekCorrected` is the corrected `lexer_peek`: it rewinds only when a
token was returned. The replay lemmas (`ReplayFrom`, `RewindThenReplay`, `ReadRewindReplay`) are
proved for both versions through the `corrected` flag of `Lexer.Advance`. The as-written version
needs input to remain; the corrected one does not.

`Lexer.NextCorrected` does not correct the same seek in `lexer_keyword` (line 354). When a
keyword ends the input, the cursor is left on its last letter, as `Matchers.Keyword` states, and
the next call lexes that letter again as an identifier, whose `char_next` panics at end of file
(`Lexer.KeywordAtEndThenAbort`).

=== FILE: chars.dfy ===
/** Character classes used by the lexer of lang/sc.c.
    Characters are Dafny chars; the source's signed-char representation is not modelled. */
module Chars {

  /** is_num: a decimal digit. */
  predicate IsNum(c: char) {
    '0' <= c <= '9'
  }

  /** is_alpha: a letter or an underscore, the characters that may start an identifier. */
  predicate IsAlpha(c: char) {
    ('a' <= c <= 'z') || ('A' <= c <= 'Z') || c == '_'
  }

  /** is_alpha_num: a character that may continue an identifier. */
  predicate IsAlphaNum(c: char) {
    ('a' <= c <= 'z') || ('A' <= c <= 'Z') || ('0' <= c <= '9') || c == '_'
  }

  /** is_str: a printable ASCII character, the only characters allowed inside a string literal. */
  predicate IsStr(c: char) {
    32 <= c as int <= 126
  }

  /** Membership in the set " \n\r\t" that lexer_next skips before every token. */
  predicate IsSkip(c: char) {
    c == ' ' || c == '\n' || c == '\r' || c == '\t'
  }

  /** The identifier-continuation class is exactly the union of the start class and the digits,
      and the two parts do not overlap. */
  lemma AlphaNumSplits(c: char)
    ensures IsAlphaNum(c) <==> IsAlpha(c) || IsNum(c)
    ensures !(IsAlpha(c) && IsNum(c))
  {
  }

  /** Whitespace other than the blank is not printable, so a string literal ends fatally at a
      newline, carriage return or tab. */
  lemma SkipInsideString(c: char)
    ensures IsSkip(c) && IsStr(c) <==> c == ' '
  {
  }
}

=== FILE: cursor.dfy ===
/** The matchers of lang/sc.c read character by character from a cursor, as the source does.
    Every character read through char_move is counted in rc; char_fail moves the cursor back by
    rc and reports a mismatch; char_unget pushes back the one character read past a token.
    Each method is proved to agree with the closed form in module Matchers and to leave the
    cursor at its entry position on a mismatch and just after the token on a match. The one
    exception is char_peek at end of input, which moves the cursor back by one character. */
module Cursor {
  import opened Wrappers
  import opened Chars
  import opened Tokens
  import opened Matchers
  import opened Rules

  /** char_skip: reads until a character outside " \n\r\t", pushes it back and returns how many
      characters were skipped. */
  method SkipSpace(s: string, entry: nat) returns (r: Result<nat, Fault>, cursor: nat)
    requires entry <= |s|
    ensures r == Skip(s, entry)
    ensures r.Success? ==> cursor == entry + r.value
  {
    cursor := entry;
    var count: int := -1;
    while true
      invariant -1 <= count && cursor == entry + count + 1 <= |s|
      invariant forall k :: entry <= k < cursor ==> IsSkip(s[k])
      decreases |s| - cursor
    {
      if cursor == |s| {
        RunEndUnique(s, entry, IsSkip, cursor);
        return Failure(EndOfFile), cursor;
      }
      var c := s[cursor];
      cursor, count := cursor + 1, count + 1;
      if !IsSkip(c) {
        break;
      }
    }
    cursor := cursor - 1;
    RunEndUnique(s, entry, IsSkip, cursor);
    r := Success(count);
  }

  /** lexer_identifier. */
  method LexIdentifier(s: string, entry: nat) returns (o: Lexeme, cursor: nat)
    requires entry <= |s|
    ensures o == Identifier(s, entry)
    ensures o.NoMatch? ==> cursor == entry
    ensures o.Match? ==> cursor == o.next
  {
    cursor := entry;
    var rc := 0;
    if cursor == |s| {
      return Fatal(EndOfFile), cursor;
    }
    var c := s[cursor];
    cursor, rc := cursor + 1, rc + 1;
    if !IsAlpha(c) {
      cursor := cursor - rc;
      return NoMatch, cursor;
    }
    var buffer := [c];
    while true
      invariant cursor == entry + rc && rc == |buffer| && cursor <= |s|
      invariant 1 <= |buffer| <= MaxStrLen
      invariant buffer == s[entry..cursor]
      invariant IsAlpha(s[entry])
      invariant forall k :: entry + 1 <= k < cursor ==> IsAlphaNum(s[k])
      decreases |s| - cursor
    {
      if cursor == |s| {
        RunEndUnique(s, entry + 1, IsAlphaNum, cursor);
        return Fatal(EndOfFile), cursor;
      }
      c := s[cursor];
      cursor, rc := cursor + 1, rc + 1;
      if !IsAlphaNum(c) {
        break;
      }
      if |buffer| >= MaxStrLen {
        return Fatal(TooLong), cursor;
      }
      buffer := buffer + [c];
    }
    cursor := cursor - 1;
    RunEndUnique(s, entry + 1, IsAlphaNum, cursor);
    o := Match(Ident(buffer), cursor);
  }

  /** The digit loop of lexer_integer and lexer_float: reads digits into the scratch buffer,
      the first one at buffer index `index`, panics on a digit at index MAX_STR_LEN or beyond, and
      stops after reading the first non-digit, which it returns in c. */
  method ReadDigits(s: string, entry: nat, start: nat, index: nat, rc: nat)
    returns (fault: Option<Fault>, run: string, cursor: nat, rc': nat, c: char)
    requires entry <= start <= |s| && rc == start - entry
    ensures rc' == cursor - entry
    ensures fault == None ==>
      var e := RunEnd(s, start, IsNum);
      && (e == start || index + (e - start) <= MaxStrLen)
      && e < |s| && cursor == e + 1 && c == s[e]
      && run == s[start..e]
    ensures fault == Some(EndOfFile) ==>
      var e := RunEnd(s, start, IsNum);
      e == |s| && (e == start || index + (e - start) <= MaxStrLen)
    ensures fault == Some(TooLong) ==>
      var e := RunEnd(s, start, IsNum);
      e > start && index + (e - start) > MaxStrLen
    ensures fault == None || fault == Some(EndOfFile) || fault == Some(TooLong)
  {
    cursor, rc', run, c := start, rc, [], ' ';
    while true
      invariant start <= cursor <= |s| && rc' == cursor - entry
      invariant run == s[start..cursor]
      invariant |run| == 0 || index + |run| <= MaxStrLen
      invariant forall k :: start <= k < cursor ==> IsNum(s[k])
      decreases |s| - cursor
    {
      if cursor == |s| {
        RunEndUnique(s, start, IsNum, cursor);
        return Some(EndOfFile), run, cursor, rc', c;
      }
      c := s[cursor];
      cursor, rc' := cursor + 1, rc' + 1;
      if !IsNum(c) {
        break;
      }
      if index + |run| >= MaxStrLen {
        return Some(TooLong), run, cursor, rc', c;
      }
      run := run + [c];
    }
    RunEndUnique(s, start, IsNum, cursor - 1);
    fault := None;
  }

  /** lexer_integer: peeks for a digit, reads the digit run and the character after it, and moves
      back by everything it read when that character is '.' or 'f'. The peek at end of input moves
      the cursor back by one, and the mismatch that follows moves it back by nothing more. */
  method LexInteger(s: string, entry: nat) returns (o: Lexeme, cursor: nat)
    requires entry <= |s|
    ensures o == Integer(s, entry)
    ensures o.NoMatch? ==> cursor == (if entry == |s| then EndPeek(|s|) else entry)
    ensures o.Match? ==> cursor == o.next
  {
    cursor := entry;
    var rc := 0;
    if cursor == |s| {
      cursor := EndPeek(|s|);
      cursor := cursor - rc;
      return NoMatch, cursor;
    }
    if !IsNum(s[cursor]) {
      cursor := cursor - rc;
      return NoMatch, cursor;
    }
    var fault, digits, c;
    fault, digits, cursor, rc, c := ReadDigits(s, entry, entry, 0, rc);
    if fault.Some? {
      return Fatal(fault.value), cursor;
    }
    if c == '.' || c == 'f' {
      cursor := cursor - rc;
      return NoMatch, cursor;
    }
    cursor := cursor - 1;
    o := Match(IntLit(DecimalValue(digits)), cursor);
  }

  /** lexer_float: peeks for a digit and reads the digit run. A following 'f' is kept; a
      following '.' starts a second digit run whose terminating character is pushed back; any
      other character makes it move back by everything it read. */
  method LexFloat(s: string, entry: nat) returns (o: Lexeme, cursor: nat)
    requires entry <= |s|
    ensures o == Float(s, entry)
    ensures o.NoMatch? ==> cursor == (if entry == |s| then EndPeek(|s|) else entry)
    ensures o.Match? ==> cursor == o.next
  {
    cursor := entry;
    var rc := 0;
    if cursor == |s| {
      cursor := EndPeek(|s|);
      cursor := cursor - rc;
      return NoMatch, cursor;
    }
    if !IsNum(s[cursor]) {
      cursor := cursor - rc;
      return NoMatch, cursor;
    }
    var fault, whole, c;
    fault, whole, cursor, rc, c := ReadDigits(s, entry, entry, 0, rc);
    if fault.Some? {
      return Fatal(fault.value), cursor;
    }
    if c == 'f' {
      return Match(FloatLit(whole, []), cursor), cursor;
    } else if c == '.' {
      var fraction;
      fault, fraction, cursor, rc, c := ReadDigits(s, entry, cursor, |whole| + 1, rc);
      if fault.Some? {
        return Fatal(fault.value), cursor;
      }
      cursor := cursor - 1;
      return Match(FloatLit(whole, fraction), cursor), cursor;
    }
    cursor := cursor - rc;
    o := NoMatch;
  }

  /** lexer_string: reads the opening quote (moving back by one if it is something else), then
      printable characters up to a quote not preceded by a backslash. */
  method LexString(s: string, entry: nat) returns (o: Lexeme, cursor: nat)
    requires entry <= |s|
    ensures o == StringLiteral(s, entry)
    ensures o.NoMatch? ==> cursor == entry
    ensures o.Match? ==> cursor == o.next
  {
    cursor := entry;
    var rc := 0;
    if cursor == |s| {
      return Fatal(EndOfFile), cursor;
    }
    var c := s[cursor];
    cursor, rc := cursor + 1, rc + 1;
    if c != '"' {
      cursor := cursor - rc;
      return NoMatch, cursor;
    }
    var q := entry + 1;
    var text: string := [];
    while true
      invariant q <= cursor <= |s| && cursor == entry + rc
      invariant text == s[q..cursor]
      invariant |text| <= MaxStrLen
      invariant forall j :: q <= j < cursor ==> IsStr(s[j]) && !Closes(s, q, j)
      decreases |s| - cursor
    {
      if cursor == |s| {
        return Fatal(EndOfFile), cursor;
      }
      c := s[cursor];
      cursor, rc := cursor + 1, rc + 1;
      if !IsStr(c) {
        break;
      }
      if |text| >= MaxStrLen {
        return Fatal(TooLong), cursor;
      }
      if c == '"' && (|text| == 0 || text[|text| - 1] != '\\') {
        break;
      }
      assert !Closes(s, q, cursor - 1) by {
        if |text| > 0 {
          assert text[|text| - 1] == s[cursor - 2];
        }
      }
      text := text + [c];
    }
    if c != '"' {
      return Fatal(Unterminated), cursor;
    }
    o := Match(StrLit(text), cursor);
  }

  /** lexer_keyword: compares the input with key one character at a time; for a keyword it then
      peeks at the following character. */
  method LexKeyword(s: string, entry: nat, isOp: bool, key: string, kind: string)
    returns (o: Lexeme, cursor: nat)
    requires entry <= |s|
    ensures o == Keyword(s, entry, isOp, key, kind)
    ensures o.NoMatch? ==> cursor == entry
    ensures o.Match? ==> cursor == o.next
  {
    cursor := entry;
    var rc := 0;
    var i := 0;
    while i < |key|
      invariant 0 <= i <= |key|
      invariant cursor == entry + rc && rc == i && cursor <= |s|
      invariant s[entry..cursor] == key[..i]
    {
      if cursor == |s| {
        assert s[entry..] == key[..|s| - entry];
        return Fatal(EndOfFile), cursor;
      }
      var c := s[cursor];
      cursor, rc := cursor + 1, rc + 1;
      if c != key[i] {
        assert s[entry..cursor][i] != key[..i + 1][i];
        cursor := cursor - rc;
        return NoMatch, cursor;
      }
      i := i + 1;
    }
    assert key[..i] == key;
    if !isOp {
      if cursor == |s| {
        cursor := EndPeek(|s|);
      } else if IsAlphaNum(s[cursor]) {
        cursor := cursor - rc;
        return NoMatch, cursor;
      }
    }
    o := Match(Fixed(kind), cursor);
  }

  /** One matcher call of lexer_next. */
  method LexRule(rule: Rule, s: string, entry: nat) returns (o: Lexeme, cursor: nat)
    requires entry <= |s|
    ensures o == Apply(rule, s, entry)
    ensures o.NoMatch? ==> cursor == (if entry == |s| then EndPeek(|s|) else entry)
    ensures o.Match? ==> cursor == o.next
  {
    match rule
    case FixedRule(isOp, e) =>
      o, cursor := LexKeyword(s, entry, isOp, e.spelling, e.kind);
    case IdentRule =>
      o, cursor := LexIdentifier(s, entry);
    case IntRule =>
      o, cursor := LexInteger(s, entry);
    case FloatRule =>
      o, cursor := LexFloat(s, entry);
    case StringRule =>
      o, cursor := LexString(s, entry);
  }

  /** The matcher cascade of lexer_next: each rule is tried at the cursor left by the previous
      one, and since a mismatch moves the cursor back by everything it read, every rule starts at
      the same position. The first outcome other than a mismatch is returned. */
  method LexFirst(rules: seq<Rule>, s: string, entry: nat) returns (o: Lexeme, cursor: nat)
    requires entry < |s|
    ensures o == FirstMatch(rules, s, entry)
    ensures o.NoMatch? ==> cursor == entry
    ensures o.Match? ==> cursor == o.next
  {
    cursor := entry;
    var i := 0;
    while i < |rules|
      invariant 0 <= i <= |rules| && cursor == entry
      invariant forall j :: 0 <= j < i ==> Apply(rules[j], s, entry).NoMatch?
    {
      o, cursor := LexRule(rules[i], s, cursor);
      if !o.NoMatch? {
        return;
      }
      i := i + 1;
    }
    o := NoMatch;
  }
}

=== FILE: lexer.dfy ===
/** The lexer object of lang/sc.c (lexer_t, lexer_crt, lexer_next, lexer_rewind, lexer_peek).
    The FILE* is replaced by the whole input text and a cursor. Every token handed out is pushed
    on `stack`; lexer_rewind moves tokens from `stack` to `from`, and lexer_next hands out the
    tokens on `from` again before it reads more input. */
module Lexer {
  import opened Wrappers
  import opened Stack
  import opened Tokens
  import opened Matchers
  import opened Rules

  /** lexer_t. `rules` is the order in which lexer_next tries the matchers. The source hard-wires
      that order in lexer_next; here it is a field, which Init sets to LexerRules. Both stacks
      have their top at index 0. */
  datatype Lexer = Lexer(
    rules: seq<Rule>,
    input: string,
    pos: nat,
    current: Option<Token>,
    stack: seq<Token>,
    from: seq<Token>)
  {
    predicate Valid() {
      pos <= |input|
    }
  }

  /** lexer_crt: a lexer at the start of its input with no tokens read. */
  function Init(input: string): Lexer {
    Lexer(LexerRules, input, 0, None, [], [])
  }

  /** Outcome of one lexer_next call: the token returned (None for the source's null) and the
      lexer afterwards, or a fatal condition that ends the process. */
  datatype Step = Step(token: Option<Token>, lexer: Lexer) | Abort(fault: Fault)

  /** set_res: the returned token is pushed on `stack` and becomes `current`. */
  function Record(l: Lexer, t: Token): Lexer {
    l.(stack := Push(l.stack, t), current := Some(t))
  }

  /** A recorded token is what the next stack_pop of the read stack returns, and that pop gives
      back the read stack as it was before. */
  lemma RecordThenPop(l: Lexer, t: Token)
    ensures Pop(Record(l, t).stack) == (Some(t), l.stack)
    ensures Record(l, t).current == Some(t)
  {
    PushThenPop(l.stack, t);
  }

  /** Reading a new token from the input: skip whitespace once, then try the rules in order. A
      mismatch of every rule returns null and leaves the skipped whitespace consumed. Whitespace
      up to the end of input is fatal as written, because char_next panics before char_skip can
      report end of input; the corrected version returns null there with the cursor at the end. */
  function Scan(l: Lexer, corrected: bool): (r: Step)
    requires l.Valid()
    ensures r.Step? ==> r.lexer.Valid() && r.lexer.rules == l.rules && r.lexer.input == l.input
    ensures r.Step? ==> r.lexer.from == l.from
    ensures r.Step? && r.token.Some? ==>
      r.lexer.stack == Push(l.stack, r.token.value) && r.lexer.current == r.token
    ensures r.Step? && r.token.None? ==> r.lexer == l.(pos := r.lexer.pos)
    ensures r.Step? && r.token.None? && r.lexer.pos < |l.input| ==>
      !Chars.IsSkip(l.input[r.lexer.pos]) && FirstMatch(l.rules, l.input, r.lexer.pos) == NoMatch
    ensures r.Step? && r.token.None? && r.lexer.pos == |l.input| ==>
      corrected && forall k :: l.pos <= k < |l.input| ==> Chars.IsSkip(l.input[k])
    ensures Skip(l.input, l.pos).Failure? ==> (r.Abort? <==> !corrected)
    ensures Skip(l.input, l.pos).Failure? && r.Abort? ==> r.fault == EndOfFile
    ensures Skip(l.input, l.pos).Success? ==>
      var o := FirstMatch(l.rules, l.input, l.pos + Skip(l.input, l.pos).value);
      (r.Abort? <==> o.Fatal?) && (r.Abort? ==> o == Fatal(r.fault))
  {
    match Skip(l.input, l.pos)
    case Failure(f) => if corrected then Step(None, l.(pos := |l.input|)) else Abort(f)
    case Success(n) => Read(l, l.pos + n)
  }

  /** Trying the rules in order at p, where char_skip stopped: a match is recorded and moves the
      cursor past the token, a full mismatch returns null with the cursor at p, and a fatal
      outcome aborts. */
  function Read(l: Lexer, p: nat): (r: Step)
    requires l.Valid() && p < |l.input|
    ensures r.Step? ==> r.lexer.Valid() && r.lexer.rules == l.rules && r.lexer.input == l.input
    ensures r.Step? ==> r.lexer.from == l.from
    ensures r.Step? && r.token.Some? ==>
      r.lexer.stack == Push(l.stack, r.token.value) && r.lexer.current == r.token
    ensures r.Step? && r.token.None? ==>
      r.lexer == l.(pos := p) && FirstMatch(l.rules, l.input, p) == NoMatch
    ensures var o := FirstMatch(l.rules, l.input, p);
      (r.Abort? <==> o.Fatal?) && (r.Abort? ==> o == Fatal(r.fault))
  {
    match FirstMatch(l.rules, l.input, p)
    case Match(t, q) => Step(Some(t), Record(l.(pos := q), t))
    case NoMatch => Step(None, l.(pos := p))
    case Fatal(f) => Abort(f)
  }

  /** Handing out the top of `from` again, without reading input. */
  function Replay(l: Lexer): (r: Step)
    requires |l.from| > 0
    ensures r.Step? && r.token == Some(l.from[0]) && r.lexer.from == l.from[1..]
  {
    match Pop(l.from)
    case (Some(t), rest) => Step(Some(t), Record(l.(from := rest), t))
  }

  /** Replay and lexer_rewind(1) undo each other: rewinding a replayed token puts it back on top of
      `from` and restores the read stack, and only `current` still shows the token. */
  lemma ReplayThenRewind(l: Lexer)
    requires |l.from| > 0
    ensures Rewind(Replay(l).lexer, 1) == l.(current := Some(l.from[0]))
  {
  }

  /** lexer_next as written: at end of input it returns null before it looks at `from` (and
      char_peek's seek moves the cursor back onto the last character), then it replays a rewound
      token if there is one, and otherwise reads a new token. */
  function Next(l: Lexer): (r: Step)
    requires l.Valid()
    ensures r.Step? ==> r.lexer.Valid() && r.lexer.rules == l.rules && r.lexer.input == l.input
    ensures l.pos == |l.input| ==> r == Step(None, l.(pos := EndPeek(|l.input|)))
    ensures l.pos < |l.input| && |l.from| > 0 ==>
      r.Step? && r.token == Some(l.from[0]) && r.lexer.pos == l.pos && r.lexer.from == l.from[1..]
    ensures r.Step? && r.token.Some? ==>
      r.lexer.stack == Push(l.stack, r.token.value) && r.lexer.current == r.token
    ensures r.Step? && r.token.None? ==>
      r.lexer.stack == l.stack && r.lexer.from == l.from && r.lexer.current == l.current
  {
    if l.pos == |l.input| then Step(None, l.(pos := EndPeek(|l.input|)))
    else if |l.from| > 0 then Replay(l)
    else Scan(l, false)
  }

  /** lexer_next with the replay moved before the end-of-input check, so that a rewound token is
      handed out again even when the input is exhausted, and with an end-of-input check that does
      not move the cursor, so that end of input stays end of input. */
  function NextCorrected(l: Lexer): (r: Step)
    requires l.Valid()
    ensures r.Step? ==> r.lexer.Valid() && r.lexer.rules == l.rules && r.lexer.input == l.input
    ensures |l.from| > 0 ==>
      r.Step? && r.token == Some(l.from[0]) && r.lexer.pos == l.pos && r.lexer.from == l.from[1..]
    ensures |l.from| == 0 && l.pos == |l.input| ==> r == Step(None, l)
    ensures r.Step? && r.token.Some? ==>
      r.lexer.stack == Push(l.stack, r.token.value) && r.lexer.current == r.token
    ensures r.Step? && r.token.None? ==>
      r.lexer.stack == l.stack && r.lexer.from == l.from && r.lexer.current == l.current
  {
    if |l.from| > 0 then Replay(l)
    else if l.pos == |l.input| then Step(None, l)
    else Scan(l, true)
  }

  /** The two versions differ only at end of input: in whether a pending token is handed out,
      where the cursor is left, and whether whitespace up to the end is fatal. */
  lemma NextVersionsAgree(l: Lexer)
    requires l.Valid()
    ensures l.pos < |l.input| && (|l.from| > 0 || Next(l).Step?) ==> Next(l) == NextCorrected(l)
    ensures l.pos < |l.input| && Next(l).Abort? && NextCorrected(l).Step? ==>
      && NextCorrected(l) == Step(None, l.(pos := |l.input|))
      && forall k :: l.pos <= k < |l.input| ==> Chars.IsSkip(l.input[k])
    ensures l.pos == |l.input| && |l.from| == 0 ==>
      Next(l) == Step(None, l.(pos := EndPeek(|l.input|))) && NextCorrected(l) == Step(None, l)
  {
  }

  /** With the corrected lexer_next, end of input is stable: once it returned null there with
      nothing rewound, every further call returns null and changes nothing. */
  lemma {:induction false} CorrectedEndIsStable(l: Lexer, n: nat)
    requires l.Valid() && l.pos == |l.input| && |l.from| == 0
    ensures NextN(l, n, true) == Run(Nulls(n), l)
  {
    if n > 0 {
      CorrectedEndIsStable(l, n - 1);
    }
  }

  /** With the corrected lexer_next, input that holds only whitespace from the cursor on ends the
      token stream: the first call returns null with the cursor at the end, and so does every
      call after it. */
  lemma CorrectedTrailingSpace(l: Lexer, n: nat)
    requires l.Valid() && |l.from| == 0
    requires forall k :: l.pos <= k < |l.input| ==> Chars.IsSkip(l.input[k])
    ensures NextN(l, n + 1, true) == Run(Nulls(n + 1), l.(pos := |l.input|))
  {
    var l' := l.(pos := |l.input|);
    if l.pos < |l.input| {
      SpaceToEnd(l);
    }
    CorrectedEndIsStable(l', n);
    NextNCons(l, n + 1, true, None, l', Nulls(n), l');
  }

  /** n null results. */
  function Nulls(n: nat): (r: seq<Option<Token>>)
    ensures |r| == n && forall i :: 0 <= i < n ==> r[i] == None
  {
    if n == 0 then [] else [None] + Nulls(n - 1)
  }

  /** lexer_rewind: moves up to n tokens, one at a time, from the top of `stack` to the top of
      `from`, stopping early when `stack` runs empty. The most recently read token ends up deepest
      in `from`, so `from` lists the moved tokens oldest first. */
  function Rewind(l: Lexer, n: nat): (r: Lexer)
    ensures var k := if n <= |l.stack| then n else |l.stack|;
      r == l.(stack := l.stack[k..], from := Reverse(l.stack[..k]) + l.from)
    decreases n
  {
    if n == 0 || |l.stack| == 0 then l
    else
      var t := l.stack[0];
      var r := Rewind(l.(stack := l.stack[1..], from := [t] + l.from), n - 1);
      var k := if n <= |l.stack| then n else |l.stack|;
      ReverseStep(l.stack, k, l.from);
      r
  }

  lemma ReverseStep<T>(s: seq<T>, k: nat, f: seq<T>)
    requires 0 < k <= |s|
    ensures s[1..][k-1..] == s[k..]
    ensures Reverse(s[..k]) + f == Reverse(s[1..][..k - 1]) + ([s[0]] + f)
  {
    assert s[..k][1..] == s[1..][..k - 1];
  }

  /** lexer_peek as written: the next token, then a rewind by one whatever lexer_next returned. */
  function Peek(l: Lexer): (r: Step)
    requires l.Valid()
    ensures r.Abort? <==> Next(l).Abort?
    ensures r.Step? ==> r.lexer.Valid() && r.token == Next(l).token
  {
    match Next(l)
    case Abort(f) => Abort(f)
    case Step(t, l') => Step(t, Rewind(l', 1))
  }

  /** A new lexer has read nothing, so rewinding it by any number of tokens changes nothing. */
  lemma InitNothingToRewind(input: string, n: nat)
    ensures Rewind(Init(input), n) == Init(input)
  {
  }

  /** A peek that returns a token before end of input consumes nothing: the next call returns the
      same token and reaches the same state as if the peek had not happened. PeekAfterNullRequeues
      and RewoundTokenLostAtEnd show that neither condition can be dropped. */
  lemma PeekTransparent(l: Lexer)
    requires l.Valid() && Next(l).Step? && Next(l).token.Some? && Next(l).lexer.pos < |l.input|
    ensures Peek(l).Step? && Peek(l).token == Next(l).token
    ensures Next(Peek(l).lexer) == Next(l)
  {
    var r := Next(l);
    var t := r.token.value;
    var l' := r.lexer;
    var l2 := l'.(stack := l'.stack[1..], from := [t] + l'.from);
    assert Rewind(l', 1) == l2;
    assert Peek(l).lexer == l2;
    assert Next(l2) == Replay(l2);
    assert Record(l2.(from := l2.from[1..]), t) == l';
  }

  /** lexer_peek rewinding only when a token was returned, over the corrected lexer_next. */
  function PeekCorrected(l: Lexer): (r: Step)
    requires l.Valid()
    ensures r.Step? ==> r.lexer.Valid()
  {
    match NextCorrected(l)
    case Abort(f) => Abort(f)
    case Step(None, l') => Step(None, l')
    case Step(Some(t), l') => Step(Some(t), Rewind(l', 1))
  }

  /** Outcome of n successive lexer_next calls. */
  datatype Run = Run(tokens: seq<Option<Token>>, lexer: Lexer) | Aborted(fault: Fault)

  /** One lexer_next call, as written or corrected. Either way a
      returned token is recorded on `stack` and a null result records nothing. */
  function Advance(l: Lexer, corrected: bool): (r: Step)
    requires l.Valid()
    ensures r.Step? ==> r.lexer.Valid() && r.lexer.rules == l.rules && r.lexer.input == l.input
    ensures r.Step? && r.token.Some? ==>
      r.lexer.stack == Push(l.stack, r.token.value) && r.lexer.current == r.token
    ensures r.Step? && r.token.None? ==>
      r.lexer.stack == l.stack && r.lexer.from == l.from && r.lexer.current == l.current
  {
    if corrected then NextCorrected(l) else Next(l)
  }

  /** n successive lexer_next calls, collecting what each returns. Whatever the calls return,
      the tokens among the results end up on `stack` newest first, on top of what it held
      before, and the last of them is current; a run of nulls leaves both alone. */
  function NextN(l: Lexer, n: nat, corrected: bool): (r: Run)
    requires l.Valid()
    ensures r.Run? ==> |r.tokens| == n && r.lexer.Valid()
    ensures r.Run? ==> r.lexer.rules == l.rules && r.lexer.input == l.input
    ensures r.Run? ==> r.lexer.stack == Reverse(Present(r.tokens)) + l.stack
    ensures r.Run? ==> r.lexer.current == LastOr(Present(r.tokens), l.current)
    decreases n
  {
    if n == 0 then Run([], l)
    else match Advance(l, corrected)
      case Abort(f) => Aborted(f)
      case Step(t, l') =>
        match NextN(l', n - 1, corrected)
        case Aborted(f) => Aborted(f)
        case Run(ts, l'') =>
          PresentCons(t, ts, l.stack, l.current);
          Run([t] + ts, l'')
  }

  /** The tokens among a sequence of results, in order, with the nulls dropped. */
  function Present(ts: seq<Option<Token>>): (r: seq<Token>)
    ensures |r| <= |ts|
    ensures (forall i :: 0 <= i < |ts| ==> ts[i].Some?) ==> |r| == |ts|
  {
    if |ts| == 0 then []
    else (if ts[0].Some? then [ts[0].value] else []) + Present(ts[1..])
  }

  /** The last token of vs, or d when there is none. */
  function LastOr(vs: seq<Token>, d: Option<Token>): (r: Option<Token>)
    ensures |vs| == 0 ==> r == d
    ensures |vs| > 0 ==> r == Some(vs[|vs| - 1])
  {
    if |vs| == 0 then d else Some(vs[|vs| - 1])
  }

  /** Stack and current token after one result followed by more: the step that NextN takes. */
  lemma PresentCons(t: Option<Token>, ts: seq<Option<Token>>, s: seq<Token>, c: Option<Token>)
    ensures Reverse(Present([t] + ts)) + s
      == Reverse(Present(ts)) + (if t.Some? then Push(s, t.value) else s)
    ensures LastOr(Present([t] + ts), c) == LastOr(Present(ts), if t.Some? then t else c)
  {
    assert ([t] + ts)[1..] == ts;
    if t.Some? {
      var p := Present(ts);
      assert Present([t] + ts) == [t.value] + p;
      assert ([t.value] + p)[1..] == p;
    }
  }

  /** The tokens of a sequence, each as a returned (non-null) token. */
  function Somes(ts: seq<Token>): (r: seq<Option<Token>>)
    ensures |r| == |ts| && forall i :: 0 <= i < |ts| ==> r[i] == Some(ts[i])
  {
    if |ts| == 0 then [] else [Some(ts[0])] + Somes(ts[1..])
  }

  /** Dropping the nulls from returned tokens gives the tokens back. */
  lemma {:induction false} PresentSomes(vs: seq<Token>)
    ensures Present(Somes(vs)) == vs
  {
    if |vs| > 0 {
      PresentSomes(vs[1..]);
      assert Somes(vs)[1..] == Somes(vs[1..]);
    }
  }

  /** Tokens handed out by successive calls are pushed on `stack` in LIFO order: afterwards the
      stack holds them newest first on top of what it held before, and the last one is current. */
  lemma NextNRecords(l: Lexer, n: nat, corrected: bool, vs: seq<Token>, l1: Lexer)
    requires l.Valid()
    requires NextN(l, n, corrected) == Run(Somes(vs), l1)
    ensures l1.stack == Reverse(vs) + l.stack
    ensures |vs| > 0 ==> l1.current == Some(vs[|vs| - 1])
  {
    PresentSomes(vs);
  }

  /** k calls after tokens were pushed on `from` hand out the top k of them in order without
      reading input, moving them back onto `stack`. As written this needs the input not to be
      exhausted, because the end-of-input check comes first. */
  lemma {:induction false} ReplayFrom(l: Lexer, k: nat, corrected: bool)
    requires l.Valid() && k <= |l.from|
    requires corrected || l.pos < |l.input|
    ensures NextN(l, k, corrected) == Run(Somes(l.from[..k]), Replayed(l, k))
    decreases k, 1
  {
    if k == 0 {
      ReplayNone(l, corrected);
    } else {
      ReplayOne(l, k, corrected);
    }
  }

  /** Zero calls replay nothing. */
  lemma ReplayNone(l: Lexer, corrected: bool)
    requires l.Valid()
    ensures NextN(l, 0, corrected) == Run(Somes(l.from[..0]), Replayed(l, 0))
  {
    assert Replayed(l, 0) == l;
  }

  /** One replayed token followed by k - 1 replayed tokens is k replayed tokens. */
  lemma {:induction false} ReplayOne(l: Lexer, k: nat, corrected: bool)
    requires l.Valid() && 0 < k <= |l.from|
    requires corrected || l.pos < |l.input|
    ensures NextN(l, k, corrected) == Run(Somes(l.from[..k]), Replayed(l, k))
    decreases k, 0
  {
    var l' := Record(l.(from := l.from[1..]), l.from[0]);
    ReplayFrom(l', k - 1, corrected);
    AdvanceReplays(l, corrected);
    NextNCons(l, k, corrected, Some(l.from[0]), l', Somes(l'.from[..k - 1]), Replayed(l', k - 1));
    ReplayedStep(l, k);
  }

  /** n > 0 calls are the first call followed by n - 1 calls from where it left the lexer. */
  lemma NextNCons(l: Lexer, n: nat, corrected: bool, t: Option<Token>, l': Lexer,
                  ts: seq<Option<Token>>, l2: Lexer)
    requires l.Valid() && n > 0 && Advance(l, corrected) == Step(t, l')
    requires l'.Valid() && NextN(l', n - 1, corrected) == Run(ts, l2)
    ensures NextN(l, n, corrected) == Run([t] + ts, l2)
  {
  }

  /** The lexer after the top k tokens of `from` were handed out again. */
  function Replayed(l: Lexer, k: nat): (r: Lexer)
    requires k <= |l.from|
    ensures r.Valid() == l.Valid() && r.input == l.input && r.pos == l.pos && r.rules == l.rules
  {
    l.(stack := Reverse(l.from[..k]) + l.stack,
       from := l.from[k..],
       current := if k == 0 then l.current else Some(l.from[k - 1]))
  }

  /** One replayed token followed by k - 1 more is k replayed tokens. */
  lemma ReplayedStep(l: Lexer, k: nat)
    requires 0 < k <= |l.from|
    ensures var l' := Record(l.(from := l.from[1..]), l.from[0]);
      && Replayed(l', k - 1) == Replayed(l, k)
      && [Some(l.from[0])] + Somes(l'.from[..k - 1]) == Somes(l.from[..k])
  {
    ReverseStep(l.from, k, l.stack);
    SomesStep(l.from, k);
  }

  /** With a token on `from` (and, as written, input left) lexer_next replays it. */
  lemma AdvanceReplays(l: Lexer, corrected: bool)
    requires l.Valid() && |l.from| > 0
    requires corrected || l.pos < |l.input|
    ensures Advance(l, corrected) == Replay(l)
    ensures Replay(l) == Step(Some(l.from[0]), Record(l.(from := l.from[1..]), l.from[0]))
  {
  }

  lemma SomesStep(ts: seq<Token>, k: nat)
    requires 0 < k <= |ts|
    ensures Somes(ts[..k]) == [Some(ts[0])] + Somes(ts[1..][..k - 1])
  {
    assert Somes(ts[..k])[1..] == Somes(ts[1..][..k - 1]);
  }

  /** lexer_rewind(n) with at least n tokens on `stack`, followed by n lexer_next calls, hands
      those n tokens out again in the order they were first read and restores both stacks and the
      cursor. As written the input must not be exhausted. */
  lemma RewindThenReplay(l: Lexer, n: nat, corrected: bool)
    requires l.Valid() && n <= |l.stack|
    requires corrected || l.pos < |l.input|
    ensures NextN(Rewind(l, n), n, corrected) == Run(
      Somes(Reverse(l.stack[..n])),
      l.(current := if n == 0 then l.current else Some(l.stack[0])))
  {
    ReplayFrom(Rewind(l, n), n, corrected);
    RewindRestores(l, n);
  }

  /** The state arithmetic behind RewindThenReplay: moving n tokens to `from` and back again. */
  lemma RewindRestores(l: Lexer, n: nat)
    requires n <= |l.stack|
    ensures var r := Rewind(l, n);
      && r.from[..n] == Reverse(l.stack[..n])
      && r.(stack := Reverse(r.from[..n]) + r.stack,
            from := r.from[n..],
            current := if n == 0 then r.current else Some(r.from[n - 1]))
         == l.(current := if n == 0 then l.current else Some(l.stack[0]))
  {
    var r := Rewind(l, n);
    assert r.from[..n] == Reverse(l.stack[..n]) && r.from[n..] == l.from;
    ReverseReverse(l.stack[..n]);
    assert l.stack[..n] + l.stack[n..] == l.stack;
  }

  /** Reading n tokens, rewinding n and reading n again returns the same n tokens and ends in
      exactly the same lexer state. As written the input must not be exhausted. */
  lemma ReadRewindReplay(l: Lexer, n: nat, corrected: bool, vs: seq<Token>, l1: Lexer)
    requires l.Valid()
    requires NextN(l, n, corrected) == Run(Somes(vs), l1)
    requires corrected || l1.pos < |l1.input|
    ensures NextN(Rewind(l1, n), n, corrected) == Run(Somes(vs), l1)
  {
    NextNRecords(l, n, corrected, vs, l1);
    assert l1.stack[..n] == Reverse(vs);
    RewindThenReplay(l1, n, corrected);
    ReverseReverse(vs);
    if n > 0 {
      assert l1.stack[0] == vs[n - 1];
    }
  }

  /** The corrected peek is transparent: it returns what lexer_next would return, and the
      lexer_next call after it returns the same token and reaches the same state as calling
      lexer_next directly. */
  lemma PeekCorrectedTransparent(l: Lexer)
    requires l.Valid()
    ensures PeekCorrected(l).Abort? <==> NextCorrected(l).Abort?
    ensures PeekCorrected(l).Step? ==>
      && PeekCorrected(l).token == NextCorrected(l).token
      && NextCorrected(PeekCorrected(l).lexer) == NextCorrected(l)
  {
    var r := NextCorrected(l);
    if r.Step? && r.token.None? {
      NullAgain(l);
    } else if r.Step? {
      TokenAgain(l);
    }
  }

  /** A null from the corrected lexer_next is returned again by the call after it. */
  lemma NullAgain(l: Lexer)
    requires l.Valid() && NextCorrected(l).Step? && NextCorrected(l).token.None?
    ensures NextCorrected(NextCorrected(l).lexer) == NextCorrected(l)
  {
    var l' := NextCorrected(l).lexer;
    if l'.pos < |l.input| {
      assert Skip(l.input, l'.pos) == Success(0) by {
        assert RunEnd(l.input, l'.pos, Chars.IsSkip) == l'.pos;
      }
      assert NextCorrected(l') == Scan(l', true);
    }
  }

  /** A token from the corrected lexer_next, rewound by one, is handed out again by the call
      after it, which reaches the same lexer. */
  lemma TokenAgain(l: Lexer)
    requires l.Valid() && NextCorrected(l).Step? && NextCorrected(l).token.Some?
    ensures NextCorrected(Rewind(NextCorrected(l).lexer, 1)) == NextCorrected(l)
  {
    var r := NextCorrected(l);
    var t := r.token.value;
    var l' := r.lexer;
    var l2 := l'.(stack := l'.stack[1..], from := [t] + l'.from);
    assert Rewind(l', 1) == l2;
    assert NextCorrected(l2) == Replay(l2);
    assert Record(l2.(from := l2.from[1..]), t) == l';
  }

  /** A call with nothing rewound, when whitespace is followed by a token: both versions of
      lexer_next return the token of the first applicable rule and record it. */
  lemma ReadsToken(l: Lexer, k: nat, t: Token, q: nat)
    requires l.Valid() && |l.from| == 0 && l.pos < |l.input|
    requires Skip(l.input, l.pos) == Success(k)
    requires FirstMatch(l.rules, l.input, l.pos + k) == Match(t, q)
    ensures Next(l) == Step(Some(t), Record(l.(pos := q), t))
    ensures NextCorrected(l) == Next(l)
  {
    ReadsAfterSkip(l, k);
  }

  /** A call with nothing rewound, when no rule applies after the whitespace: both versions
      return null with the whitespace consumed. */
  lemma ReadsNull(l: Lexer, k: nat)
    requires l.Valid() && |l.from| == 0 && l.pos < |l.input|
    requires Skip(l.input, l.pos) == Success(k)
    requires FirstMatch(l.rules, l.input, l.pos + k) == NoMatch
    ensures Next(l) == Step(None, l.(pos := l.pos + k))
    ensures NextCorrected(l) == Next(l)
  {
    ReadsAfterSkip(l, k);
  }

  /** A call with nothing rewound, when the first applicable rule after the whitespace is fatal:
      both versions abort. */
  lemma ReadsFatal(l: Lexer, k: nat, f: Fault)
    requires l.Valid() && |l.from| == 0 && l.pos < |l.input|
    requires Skip(l.input, l.pos) == Success(k)
    requires FirstMatch(l.rules, l.input, l.pos + k) == Fatal(f)
    ensures Next(l) == Abort(f)
    ensures NextCorrected(l) == Next(l)
  {
    ReadsAfterSkip(l, k);
  }

  /** A call with nothing rewound, once whitespace stopped at a character: both versions try the
      rules there. */
  lemma ReadsAfterSkip(l: Lexer, k: nat)
    requires l.Valid() && |l.from| == 0 && l.pos < |l.input|
    requires Skip(l.input, l.pos) == Success(k)
    ensures Next(l) == Read(l, l.pos + k) && NextCorrected(l) == Read(l, l.pos + k)
  {
    ScanReads(l, false, k);
    ScanReads(l, true, k);
  }

  lemma ScanReads(l: Lexer, corrected: bool, k: nat)
    requires l.Valid() && Skip(l.input, l.pos) == Success(k)
    ensures Scan(l, corrected) == Read(l, l.pos + k)
  {
  }

  /** A call with nothing rewound when only whitespace remains: as written it aborts at end of
      input, and the corrected version returns null with the cursor at the end. */
  lemma SpaceToEnd(l: Lexer)
    requires l.Valid() && |l.from| == 0 && l.pos < |l.input|
    requires forall k :: l.pos <= k < |l.input| ==> Chars.IsSkip(l.input[k])
    ensures Next(l) == Abort(EndOfFile)
    ensures NextCorrected(l) == Step(None, l.(pos := |l.input|))
  {
    RunEndUnique(l.input, l.pos, Chars.IsSkip, |l.input|);
    assert Scan(l, false) == Abort(EndOfFile);
    assert Scan(l, true) == Step(None, l.(pos := |l.input|));
    assert Next(l) == Scan(l, false);
    assert NextCorrected(l) == Scan(l, true);
  }

  /** A fresh lexer over the rules made from the operator table ops and the keyword table kws.
      With the source's tables it is lexer_crt's lexer. The lemmas below are stated for every
      pair of tables of the source's shape (SymbolTable, WordTable), which SourceTables shows the
      source's own tables to be. */
  function Start(ops: seq<Entry>, kws: seq<Entry>, input: string): (l: Lexer)
    ensures l == Init(input).(rules := RulesOf(ops, kws))
  {
    Lexer(RulesOf(ops, kws), input, 0, None, [], [])
  }

  /** The input `"a"`: a string literal that ends the input. lexer_next returns it and leaves the
      cursor at end of input. After a rewind by one, lexer_next as written returns null although
      a token is pending (and char_peek moves the cursor back onto the closing quote); the
      corrected version hands the token out again. */
  lemma RewoundTokenLostAtEnd(ops: seq<Entry>, kws: seq<Entry>)
    requires SymbolTable(ops) && WordTable(kws)
    ensures var l0 := Start(ops, kws, "\"a\"");
      var l1 := Record(l0.(pos := 3), StrLit("a"));
      && Next(l0) == Step(Some(StrLit("a")), l1)
      && Rewind(l1, 1).from == [StrLit("a")]
      && Next(Rewind(l1, 1)) == Step(None, Rewind(l1, 1).(pos := 2))
      && NextCorrected(Rewind(l1, 1)) == Step(Some(StrLit("a")), l1)
  {
    var l0 := Start(ops, kws, "\"a\"");
    var l1 := Record(l0.(pos := 3), StrLit("a"));
    LexesQuotedA(ops, kws);
    ReadsToken(l0, 0, StrLit("a"), 3);
    var l2 := l1.(stack := [], from := [StrLit("a")]);
    assert Rewind(l1, 1) == l2;
    assert NextCorrected(l2) == Replay(l2);
  }

  /** The same input without a rewind: the call after the token returns null as end of input,
      but leaves the cursor on the closing quote, so one more call reads that quote as the start
      of a string literal and aborts with "end of file". The corrected version keeps returning
      null. */
  lemma NullAtEndThenAbort(ops: seq<Entry>, kws: seq<Entry>)
    requires SymbolTable(ops) && WordTable(kws)
    ensures var l1 := Record(Start(ops, kws, "\"a\"").(pos := 3), StrLit("a"));
      && Next(l1) == Step(None, l1.(pos := 2))
      && Next(l1.(pos := 2)) == Abort(EndOfFile)
      && NextCorrected(l1) == Step(None, l1)
  {
    var l1 := Record(Start(ops, kws, "\"a\"").(pos := 3), StrLit("a"));
    LexesClosingQuote(ops, kws);
    ReadsFatal(l1.(pos := 2), 0, EndOfFile);
  }

  /** The input `if` with a keyword table holding only `if`. The keyword ends the input, so the
      char_peek of lexer_keyword leaves the cursor on its last letter, in both versions. The next
      call then lexes `f` as an identifier that runs into the end of input. */
  lemma KeywordAtEndThenAbort(ops: seq<Entry>)
    requires SymbolTable(ops)
    ensures var l0 := Start(ops, [Entry("IF", "if")], "if");
      var l1 := Record(l0.(pos := 1), Fixed("IF"));
      && Next(l0) == Step(Some(Fixed("IF")), l1) && NextCorrected(l0) == Next(l0)
      && Next(l1) == Abort(EndOfFile) && NextCorrected(l1) == Abort(EndOfFile)
  {
    LexesIf(ops);
    var l0 := Start(ops, [Entry("IF", "if")], "if");
    ReadsToken(l0, 0, Fixed("IF"), 1);
    LastLetterAborts(l0);
  }

  /** After the keyword of `if`, with the cursor on its last letter, both versions abort. */
  lemma LastLetterAborts(l0: Lexer)
    requires l0.Valid() && l0.input == "if" && l0.from == []
    requires FirstMatch(l0.rules, "if", 1) == Fatal(EndOfFile) && Skip("if", 1) == Success(0)
    ensures var l1 := Record(l0.(pos := 1), Fixed("IF"));
      Next(l1) == Abort(EndOfFile) && NextCorrected(l1) == Abort(EndOfFile)
  {
    ReadsFatal(Record(l0.(pos := 1), Fixed("IF")), 0, EndOfFile);
  }

  /** The lexing of `if` from its start and from its last letter. */
  lemma LexesIf(ops: seq<Entry>)
    requires SymbolTable(ops)
    ensures Skip("if", 0) == Success(0) && Skip("if", 1) == Success(0)
    ensures FirstMatch(RulesOf(ops, [Entry("IF", "if")]), "if", 0) == Match(Fixed("IF"), 1)
    ensures FirstMatch(RulesOf(ops, [Entry("IF", "if")]), "if", 1) == Fatal(EndOfFile)
  {
    var kws := [Entry("IF", "if")];
    var s := "if";
    var rules := RulesOf(ops, kws);
    RulesLayout(ops, kws);
    assert RunEnd(s, 0, Chars.IsSkip) == 0;
    assert RunEnd(s, 1, Chars.IsSkip) == 1;
    OperatorsMismatch(ops, kws, s, 0);
    assert Apply(rules[|ops|], s, 0) == Match(Fixed("IF"), 1);
    FirstMatchMisses(rules, s, 0);
    OperatorsMismatch(ops, kws, s, 1);
    assert Apply(rules[|ops|], s, 1).NoMatch?;
    assert RunEnd(s, 2, Chars.IsAlphaNum) == 2;
    assert Apply(rules[|ops| + 1], s, 1) == Fatal(EndOfFile);
    FirstMatchMisses(rules, s, 1);
  }

  /** The lexing of `"a"` from its start: the string literal. */
  lemma LexesQuotedA(ops: seq<Entry>, kws: seq<Entry>)
    requires SymbolTable(ops) && WordTable(kws)
    ensures Skip("\"a\"", 0) == Success(0)
    ensures FirstMatch(RulesOf(ops, kws), "\"a\"", 0) == Match(StrLit("a"), 3)
  {
    var s := "\"a\"";
    assert RunEnd(s, 0, Chars.IsSkip) == 0;
    StringAtQuote(ops, kws, s, 0);
    assert StringEnd(s, 1, 1) == 2;
    assert s[1..2] == "a";
  }

  /** The lexing of `"a"` from its closing quote: a string literal that never closes, so a fatal
      end of input. */
  lemma LexesClosingQuote(ops: seq<Entry>, kws: seq<Entry>)
    requires SymbolTable(ops) && WordTable(kws)
    ensures Skip("\"a\"", 2) == Success(0)
    ensures FirstMatch(RulesOf(ops, kws), "\"a\"", 2) == Fatal(EndOfFile)
  {
    var s := "\"a\"";
    assert RunEnd(s, 2, Chars.IsSkip) == 2;
    StringAtQuote(ops, kws, s, 2);
  }

  /** The input `"a"` followed by a newline: the string literal is returned, and the next call
      skips the newline, meets end of input inside char_skip and aborts with "end of file",
      although the caller expected null at end of input. The corrected version returns null with
      the cursor at the end, and keeps doing so. */
  lemma TrailingSpaceAborts(ops: seq<Entry>, kws: seq<Entry>)
    requires SymbolTable(ops) && WordTable(kws)
    ensures var l0 := Start(ops, kws, "\"a\"\n");
      var l1 := Record(l0.(pos := 3), StrLit("a"));
      && Next(l0) == Step(Some(StrLit("a")), l1)
      && Next(l1) == Abort(EndOfFile)
      && NextCorrected(l1) == Step(None, l1.(pos := 4))
      && NextCorrected(l1.(pos := 4)) == Step(None, l1.(pos := 4))
  {
    var l0 := Start(ops, kws, "\"a\"\n");
    var l1 := Record(l0.(pos := 3), StrLit("a"));
    LexesQuotedANewline(ops, kws);
    ReadsToken(l0, 0, StrLit("a"), 3);
    SpaceToEnd(l1);
  }

  /** The lexing of `"a"` and a newline: the string literal, then only whitespace. */
  lemma LexesQuotedANewline(ops: seq<Entry>, kws: seq<Entry>)
    requires SymbolTable(ops) && WordTable(kws)
    ensures Skip("\"a\"\n", 0) == Success(0)
    ensures FirstMatch(RulesOf(ops, kws), "\"a\"\n", 0) == Match(StrLit("a"), 3)
    ensures forall k :: 3 <= k < 4 ==> Chars.IsSkip("\"a\"\n"[k])
  {
    var s := "\"a\"\n";
    assert RunEnd(s, 0, Chars.IsSkip) == 0;
    StringAtQuote(ops, kws, s, 0);
    assert StringEnd(s, 1, 1) == 2;
    assert s[1..2] == "a";
  }

  /** The input `1 #`: after the integer, a peek meets `#`, which no rule accepts, so lexer_next
      returns null; lexer_peek as written still rewinds by one and so puts the integer, already
      consumed, back in front of the input, and the next lexer_next returns it a second time. */
  lemma PeekAfterNullRequeues(ops: seq<Entry>, kws: seq<Entry>)
    requires SymbolTable(ops) && WordTable(kws)
    ensures var l0 := Start(ops, kws, "1 #");
      var l1 := Record(l0.(pos := 1), IntLit(1));
      && Next(l0) == Step(Some(IntLit(1)), l1)
      && Peek(l1).Step? && Peek(l1).token == None
      && Next(Peek(l1).lexer).Step? && Next(Peek(l1).lexer).token == Some(IntLit(1))
  {
    var l0 := Start(ops, kws, "1 #");
    var l1 := Record(l0.(pos := 1), IntLit(1));
    var l2 := l1.(pos := 2);
    LexesOneHash(ops, kws);
    ReadsToken(l0, 0, IntLit(1), 1);
    ReadsNull(l1, 1);
    var l3 := l2.(stack := [], from := [IntLit(1)]);
    assert Rewind(l2, 1) == l3;
    assert Next(l3) == Replay(l3);
  }

  /** On the same input the peek that rewinds only a returned token leaves the lexer as it was
      after the null, and the next call returns null again rather than the consumed integer. */
  lemma PeekCorrectedAfterNull(ops: seq<Entry>, kws: seq<Entry>)
    requires SymbolTable(ops) && WordTable(kws)
    ensures var l1 := Record(Start(ops, kws, "1 #").(pos := 1), IntLit(1));
      && PeekCorrected(l1) == Step(None, l1.(pos := 2))
      && NextCorrected(l1.(pos := 2)) == Step(None, l1.(pos := 2))
  {
    var l1 := Record(Start(ops, kws, "1 #").(pos := 1), IntLit(1));
    LexesOneHash(ops, kws);
    ReadsNull(l1, 1);
    NullAgain(l1);
  }

  /** The lexing of `1 #`: the integer 1, then nothing at `#`. */
  lemma LexesOneHash(ops: seq<Entry>, kws: seq<Entry>)
    requires SymbolTable(ops) && WordTable(kws)
    ensures Skip("1 #", 0) == Success(0) && Skip("1 #", 1) == Success(1)
    ensures Skip("1 #", 2) == Success(0)
    ensures FirstMatch(RulesOf(ops, kws), "1 #", 0) == Match(IntLit(1), 1)
    ensures FirstMatch(RulesOf(ops, kws), "1 #", 2) == NoMatch
  {
    SkipsOneHash();
    LexesOne(ops, kws);
    LexesHash(ops, kws);
  }

  lemma SkipsOneHash()
    ensures Skip("1 #", 0) == Success(0) && Skip("1 #", 1) == Success(1)
    ensures Skip("1 #", 2) == Success(0)
  {
    var s := "1 #";
    assert RunEnd(s, 0, Chars.IsSkip) == 0;
    assert RunEnd(s, 2, Chars.IsSkip) == 2;
    assert RunEnd(s, 1, Chars.IsSkip) == 2;
  }

  lemma LexesHash(ops: seq<Entry>, kws: seq<Entry>)
    requires SymbolTable(ops) && WordTable(kws)
    ensures FirstMatch(RulesOf(ops, kws), "1 #", 2) == NoMatch
  {
    OperatorStartsAreSymbols();
    NoRuleApplies(ops, kws, "1 #", 2);
  }

  lemma LexesOne(ops: seq<Entry>, kws: seq<Entry>)
    requires SymbolTable(ops) && WordTable(kws)
    ensures FirstMatch(RulesOf(ops, kws), "1 #", 0) == Match(IntLit(1), 1)
  {
    var s := "1 #";
    NumberDisambiguation(ops, kws, s, 0);
    assert RunEnd(s, 0, Chars.IsNum) == 1;
    assert s[0..1] == "1";
    assert DecimalValue("1") == 1 by {
      assert "1"[..0] == "";
    }
  }
}

=== FILE: matchers.dfy ===
/** The token matchers of lang/sc.c as closed-form functions of the input and an entry position.
    Each returns the token and the position after it, a recoverable mismatch (the cursor is then
    back at the entry position), or a fatal condition (the source calls panic and exits). The
    character-by-character versions with the source's consumed-count bookkeeping are in module
    Cursor, proved equal to these. */
module Matchers {
  import opened Wrappers
  import opened Chars
  import opened Tokens

  /** MAX_STR_LEN: the size of every matcher's scratch buffer. */
  const MaxStrLen: nat := 1024

  /** Why the source panics: char_next at end of input, an over-long token, or a string literal
      that reaches a non-printable character before its closing quote. */
  datatype Fault = EndOfFile | TooLong | Unterminated

  /** Outcome of one matcher: the token and the position just after it, a mismatch, or a fatal
      condition. */
  datatype Lexeme = Match(token: Token, next: nat) | NoMatch | Fatal(fault: Fault)

  /** Where char_peek leaves the cursor when it is called at the end of an input of length n:
      fgetc reads nothing, and the seek back by one then lands on the last character. On an empty
      input that seek fails and the cursor stays at 0. */
  function EndPeek(n: nat): nat {
    if n == 0 then 0 else n - 1
  }

  /** The end of the longest run of characters satisfying P that starts at i. */
  function RunEnd(s: string, i: nat, P: char -> bool): (e: nat)
    requires i <= |s|
    ensures i <= e <= |s|
    ensures forall k :: i <= k < e ==> P(s[k])
    ensures e == |s| || !P(s[e])
    decreases |s| - i
  {
    if i == |s| || !P(s[i]) then i else RunEnd(s, i + 1, P)
  }

  /** The run end is the only position that bounds a run of P and is followed by end of input or a
      character outside P. */
  lemma RunEndUnique(s: string, i: nat, P: char -> bool, e: nat)
    requires i <= e <= |s|
    requires forall k :: i <= k < e ==> P(s[k])
    requires e == |s| || !P(s[e])
    ensures RunEnd(s, i, P) == e
  {
  }

  /** The value of one decimal digit. */
  function DigitValue(c: char): nat
    requires IsNum(c)
  {
    c as int - '0' as int
  }

  /** Decimal value of a digit string, as strtol computes it when it does not overflow. */
  function DecimalValue(digits: string): nat
    requires forall k :: 0 <= k < |digits| ==> IsNum(digits[k])
  {
    if |digits| == 0 then 0
    else DecimalValue(digits[..|digits| - 1]) * 10 + DigitValue(digits[|digits| - 1])
  }

  /** char_skip with the set " \n\r\t": the number of whitespace characters before the next other
      character. Reaching end of input while skipping is fatal, because char_next panics there. */
  function Skip(s: string, p: nat): (r: Result<nat, Fault>)
    requires p <= |s|
    ensures r.Success? ==> p + r.value < |s| && !IsSkip(s[p + r.value])
    ensures r.Success? ==> forall k :: p <= k < p + r.value ==> IsSkip(s[k])
    ensures r.Failure? ==> r.error == EndOfFile && forall k :: p <= k < |s| ==> IsSkip(s[k])
  {
    var e := RunEnd(s, p, IsSkip);
    if e == |s| then Failure(EndOfFile) else Success(e - p)
  }

  /** lexer_identifier: a letter or underscore followed by the longest run of letters, digits and
      underscores. The character after the run must exist (it is read, then pushed back). */
  function Identifier(s: string, p: nat): (r: Lexeme)
    requires p <= |s|
    ensures r.NoMatch? <==> p < |s| && !IsAlpha(s[p])
    ensures r.Match? ==>
      && p < r.next < |s|
      && r.next - p <= MaxStrLen
      && r.token == Ident(s[p..r.next])
      && IsAlpha(s[p])
      && (forall k :: p < k < r.next ==> IsAlphaNum(s[k]))
      && !IsAlphaNum(s[r.next])
  {
    if p == |s| then Fatal(EndOfFile)
    else if !IsAlpha(s[p]) then NoMatch
    else
      var e := RunEnd(s, p + 1, IsAlphaNum);
      if e - p > MaxStrLen then Fatal(TooLong)
      else if e == |s| then Fatal(EndOfFile)
      else Match(Ident(s[p..e]), e)
  }

  /** lexer_integer: a run of digits that is not followed by '.' or 'f'. A run that is so followed
      is left to lexer_float. */
  function Integer(s: string, p: nat): (r: Lexeme)
    requires p <= |s|
    ensures (p == |s| || !IsNum(s[p])) ==> r.NoMatch?
    ensures r.Match? ==>
      && p < r.next < |s|
      && r.next - p <= MaxStrLen
      && (forall k :: p <= k < r.next ==> IsNum(s[k]))
      && !IsNum(s[r.next]) && s[r.next] != '.' && s[r.next] != 'f'
      && r.token == IntLit(DecimalValue(s[p..r.next]))
    ensures r.NoMatch? && p < |s| && IsNum(s[p]) ==>
      var e := RunEnd(s, p, IsNum);
      e < |s| && (s[e] == '.' || s[e] == 'f')
  {
    if p == |s| || !IsNum(s[p]) then NoMatch
    else
      var e := RunEnd(s, p, IsNum);
      if e - p > MaxStrLen then Fatal(TooLong)
      else if e == |s| then Fatal(EndOfFile)
      else if s[e] == '.' || s[e] == 'f' then NoMatch
      else Match(IntLit(DecimalValue(s[p..e])), e)
  }

  /** lexer_float: a run of digits followed either by 'f', which is consumed, or by '.' and a
      possibly empty run of digits, whose following character is read and pushed back. */
  function Float(s: string, p: nat): (r: Lexeme)
    requires p <= |s|
    ensures (p == |s| || !IsNum(s[p])) ==> r.NoMatch?
    ensures r.Match? ==>
      && r.token.FloatLit?
      && var e := p + |r.token.whole|;
      && p < e < r.next <= |s|
      && e - p <= MaxStrLen && (r.next == e + 1 || r.next - p <= MaxStrLen)
      && r.token.whole == s[p..e]
      && (forall k :: p <= k < e ==> IsNum(s[k]))
      && ((s[e] == 'f' && r.next == e + 1 && r.token.fraction == [])
          || (s[e] == '.' && r.next < |s| && r.token.fraction == s[e + 1..r.next]
              && (forall k :: e < k < r.next ==> IsNum(s[k])) && !IsNum(s[r.next])))
    ensures r.NoMatch? && p < |s| && IsNum(s[p]) ==>
      var e := RunEnd(s, p, IsNum);
      e < |s| && s[e] != '.' && s[e] != 'f'
  {
    if p == |s| || !IsNum(s[p]) then NoMatch
    else
      var e := RunEnd(s, p, IsNum);
      if e - p > MaxStrLen then Fatal(TooLong)
      else if e == |s| then Fatal(EndOfFile)
      else if s[e] == 'f' then Match(FloatLit(s[p..e], []), e + 1)
      else if s[e] == '.' then
        var f := RunEnd(s, e + 1, IsNum);
        if f > e + 1 && f - p > MaxStrLen then Fatal(TooLong)
        else if f == |s| then Fatal(EndOfFile)
        else Match(FloatLit(s[p..e], s[e + 1..f]), f)
      else NoMatch
  }

  /** The quote at position k closes a string literal whose text starts at q: it is the first
      character of the text or follows a character other than a backslash. */
  predicate Closes(s: string, q: nat, k: nat)
    requires q <= k < |s|
  {
    s[k] == '"' && (k == q || s[k - 1] != '\\')
  }

  /** The first position at or after k where the text of a string literal starting at q stops:
      end of input, a non-printable character, or a closing quote. */
  function StringEnd(s: string, q: nat, k: nat): (e: nat)
    requires q <= k <= |s|
    ensures k <= e <= |s|
    ensures forall j :: k <= j < e ==> IsStr(s[j]) && !Closes(s, q, j)
    ensures e == |s| || !IsStr(s[e]) || Closes(s, q, e)
    decreases |s| - k
  {
    if k == |s| || !IsStr(s[k]) || Closes(s, q, k) then k else StringEnd(s, q, k + 1)
  }

  /** lexer_string: a double quote, then printable characters up to the first quote not preceded
      by a backslash. The text excludes both quotes and keeps backslashes as written. A
      non-printable character before the closing quote is fatal. */
  function StringLiteral(s: string, p: nat): (r: Lexeme)
    requires p <= |s|
    ensures r.NoMatch? <==> p < |s| && s[p] != '"'
    ensures r.Match? ==>
      && p + 2 <= r.next <= |s|
      && s[p] == '"' && s[r.next - 1] == '"'
      && r.token == StrLit(s[p + 1..r.next - 1])
      && r.next - p - 2 < MaxStrLen
      && (forall j :: p + 1 <= j < r.next - 1 ==> IsStr(s[j]) && !Closes(s, p + 1, j))
      && Closes(s, p + 1, r.next - 1)
    ensures r == Fatal(Unterminated) ==>
      && p < |s|
      && var e := StringEnd(s, p + 1, p + 1);
      && e < |s| && !IsStr(s[e])
  {
    if p == |s| then Fatal(EndOfFile)
    else if s[p] != '"' then NoMatch
    else
      var q := p + 1;
      var e := StringEnd(s, q, q);
      if e - q > MaxStrLen || (e - q == MaxStrLen && e < |s| && IsStr(s[e])) then Fatal(TooLong)
      else if e == |s| then Fatal(EndOfFile)
      else if !IsStr(s[e]) then Fatal(Unterminated)
      else Match(StrLit(s[q..e]), e + 1)
  }

  /** lexer_keyword: the exact spelling key. When the entry is a keyword rather than an operator
      (isOp false), a following identifier character turns the match into a mismatch; when the
      keyword ends the input, that peek meets end of input and moves the cursor back onto the
      keyword's last character. Input that ends while still agreeing with key is fatal. */
  function Keyword(s: string, p: nat, isOp: bool, key: string, kind: string): (r: Lexeme)
    requires p <= |s|
    ensures r.Match? <==>
      && p + |key| <= |s| && s[p..p + |key|] == key
      && (isOp || p + |key| == |s| || !IsAlphaNum(s[p + |key|]))
    ensures r.Match? ==>
      r == Match(Fixed(kind), if !isOp && p + |key| == |s| then EndPeek(|s|) else p + |key|)
    ensures r.Fatal? <==> |s| - p < |key| && s[p..] == key[..|s| - p]
    ensures r.Fatal? ==> r.fault == EndOfFile
  {
    if p + |key| <= |s| && s[p..p + |key|] == key then
      if isOp then Match(Fixed(kind), p + |key|)
      else if p + |key| == |s| then Match(Fixed(kind), EndPeek(|s|))
      else if IsAlphaNum(s[p + |key|]) then NoMatch
      else Match(Fixed(kind), p + |key|)
    else if |s| - p < |key| && s[p..] == key[..|s| - p] then Fatal(EndOfFile)
    else NoMatch
  }

  /** An identifier start character followed by a run of identifier characters that fits the
      buffer and is followed by another character is lexed as that identifier. */
  lemma IdentifierMatches(s: string, p: nat)
    requires p < |s| && IsAlpha(s[p])
    requires var e := RunEnd(s, p + 1, IsAlphaNum); e - p <= MaxStrLen && e < |s|
    ensures var e := RunEnd(s, p + 1, IsAlphaNum);
      Identifier(s, p) == Match(Ident(s[p..e]), e)
  {
  }

  /** lexer_identifier panics exactly at end of input, and when its run outgrows the buffer or
      reaches end of input. */
  lemma IdentifierFatal(s: string, p: nat)
    requires p <= |s|
    ensures Identifier(s, p).Fatal? <==>
      || p == |s|
      || (IsAlpha(s[p]) &&
          var e := RunEnd(s, p + 1, IsAlphaNum); e - p > MaxStrLen || e == |s|)
  {
  }

  /** A digit run that fits the buffer and is followed by a character other than '.' and 'f' is
      lexed as an integer with the run's decimal value. */
  lemma IntegerMatches(s: string, p: nat)
    requires p < |s| && IsNum(s[p])
    requires var e := RunEnd(s, p, IsNum);
      e - p <= MaxStrLen && e < |s| && s[e] != '.' && s[e] != 'f'
    ensures var e := RunEnd(s, p, IsNum);
      Integer(s, p) == Match(IntLit(DecimalValue(s[p..e])), e)
  {
  }

  /** A digit run that fits the buffer and is followed by '.' or 'f' is not an integer: it is
      left to lexer_float. */
  lemma IntegerDefers(s: string, p: nat)
    requires p < |s| && IsNum(s[p])
    requires var e := RunEnd(s, p, IsNum);
      e - p <= MaxStrLen && e < |s| && (s[e] == '.' || s[e] == 'f')
    ensures Integer(s, p).NoMatch?
  {
  }

  /** Both number matchers panic when the digit run outgrows the buffer or reaches end of input. */
  lemma DigitRunFatal(s: string, p: nat)
    requires p < |s| && IsNum(s[p])
    requires var e := RunEnd(s, p, IsNum); e - p > MaxStrLen || e == |s|
    ensures Integer(s, p).Fatal? && Float(s, p).Fatal?
  {
  }

  /** A digit run followed by 'f' is a float with no fraction, and the 'f' is consumed. */
  lemma FloatMatchesF(s: string, p: nat)
    requires p < |s| && IsNum(s[p])
    requires var e := RunEnd(s, p, IsNum); e - p <= MaxStrLen && e < |s| && s[e] == 'f'
    ensures var e := RunEnd(s, p, IsNum);
      Float(s, p) == Match(FloatLit(s[p..e], []), e + 1)
  {
  }

  /** A digit run followed by '.' and a possibly empty digit run that fits the buffer and is
      followed by another character is a float with that fraction. */
  lemma FloatMatchesDot(s: string, p: nat)
    requires p < |s| && IsNum(s[p])
    requires var e := RunEnd(s, p, IsNum); e - p <= MaxStrLen && e < |s| && s[e] == '.'
    requires var e := RunEnd(s, p, IsNum); var f := RunEnd(s, e + 1, IsNum);
      f < |s| && (f == e + 1 || f - p <= MaxStrLen)
    ensures var e := RunEnd(s, p, IsNum); var f := RunEnd(s, e + 1, IsNum);
      Float(s, p) == Match(FloatLit(s[p..e], s[e + 1..f]), f)
  {
  }

  /** After the decimal point, a non-empty fraction whose digits run past the buffer, or a
      fraction that reaches end of input, is fatal. */
  lemma FloatFractionFatal(s: string, p: nat)
    requires p < |s| && IsNum(s[p])
    requires var e := RunEnd(s, p, IsNum); e - p <= MaxStrLen && e < |s| && s[e] == '.'
    requires var e := RunEnd(s, p, IsNum); var f := RunEnd(s, e + 1, IsNum);
      (f > e + 1 && f - p > MaxStrLen) || f == |s|
    ensures var e := RunEnd(s, p, IsNum); var f := RunEnd(s, e + 1, IsNum);
      Float(s, p) == Fatal(if f > e + 1 && f - p > MaxStrLen then TooLong else EndOfFile)
  {
  }

  /** A digit run that fits the buffer and is followed by anything but '.' or 'f' is not a float. */
  lemma FloatDefers(s: string, p: nat)
    requires p < |s| && IsNum(s[p])
    requires var e := RunEnd(s, p, IsNum);
      e - p <= MaxStrLen && e < |s| && s[e] != '.' && s[e] != 'f'
    ensures Float(s, p).NoMatch?
  {
  }

  /** A double quote, then printable text that fits the buffer and ends at a closing quote, is
      lexed as a string literal holding that text. */
  lemma StringLiteralMatches(s: string, p: nat)
    requires p < |s| && s[p] == '"'
    requires var e := StringEnd(s, p + 1, p + 1);
      e < |s| && Closes(s, p + 1, e) && e - (p + 1) < MaxStrLen
    ensures var e := StringEnd(s, p + 1, p + 1);
      StringLiteral(s, p) == Match(StrLit(s[p + 1..e]), e + 1)
  {
  }

  /** A non-printable character inside a string literal, reached before the buffer is full, is
      fatal: the literal is not properly ended. */
  lemma StringNonPrintableFatal(s: string, p: nat)
    requires p < |s| && s[p] == '"'
    requires var e := StringEnd(s, p + 1, p + 1);
      e < |s| && !IsStr(s[e]) && e - (p + 1) <= MaxStrLen
    ensures StringLiteral(s, p) == Fatal(Unterminated)
  {
  }

  /** A line break or tab inside a string literal, reached before the buffer is full, is fatal:
      the blank is the only whitespace a literal may hold. */
  lemma StringLineBreakFatal(s: string, p: nat)
    requires p < |s| && s[p] == '"'
    requires var e := StringEnd(s, p + 1, p + 1);
      e < |s| && IsSkip(s[e]) && s[e] != ' ' && e - (p + 1) <= MaxStrLen
    ensures StringLiteral(s, p) == Fatal(Unterminated)
  {
    var e := StringEnd(s, p + 1, p + 1);
    SkipInsideString(s[e]);
    StringNonPrintableFatal(s, p);
  }
}

=== FILE: rules.dfy ===
/** The order in which lexer_next tries the matchers (lang/sc.c lines 391-402): every operator of
    OP_LIST, every keyword of KEYWORD_LIST, then identifier, integer, float and string. The first
    matcher that does not mismatch decides the outcome. */
module Rules {
  import opened Chars
  import opened Tokens
  import opened Matchers

  /** One matcher invocation of lexer_next. */
  datatype Rule =
    | FixedRule(isOp: bool, entry: Entry)
    | IdentRule
    | IntRule
    | FloatRule
    | StringRule

  /** Runs one rule at position p. */
  function Apply(rule: Rule, s: string, p: nat): (r: Lexeme)
    requires p <= |s|
    ensures r.Match? ==> r.next <= |s| && (p < |s| ==> p <= r.next)
  {
    match rule
    case FixedRule(isOp, e) => Keyword(s, p, isOp, e.spelling, e.kind)
    case IdentRule => Identifier(s, p)
    case IntRule => Integer(s, p)
    case FloatRule => Float(s, p)
    case StringRule => StringLiteral(s, p)
  }

  /** The X-macro expansion of a table: one lexer_keyword call per entry, in table order. */
  function FixedRules(isOp: bool, table: seq<Entry>): seq<Rule> {
    seq(|table|, i requires 0 <= i < |table| => FixedRule(isOp, table[i]))
  }

  /** The rule order of lexer_next for an operator table and a keyword table. */
  function RulesOf(ops: seq<Entry>, kws: seq<Entry>): seq<Rule> {
    FixedRules(true, ops) + FixedRules(false, kws) + [IdentRule, IntRule, FloatRule, StringRule]
  }

  /** The complete rule order of lexer_next. */
  const LexerRules: seq<Rule> := RulesOf(Operators, Keywords)

  /** Every spelling in the table starts with an operator character. */
  ghost predicate SymbolTable(ops: seq<Entry>) {
    forall i :: 0 <= i < |ops| ==> IsSymbol(ops[i].spelling)
  }

  /** Every spelling in the table is a word of identifier-start characters. */
  ghost predicate WordTable(kws: seq<Entry>) {
    forall i :: 0 <= i < |kws| ==> IsWord(kws[i].spelling)
  }

  /** Where each rule sits in the rule order. */
  lemma RulesLayout(ops: seq<Entry>, kws: seq<Entry>)
    ensures var rules := RulesOf(ops, kws);
      && |rules| == |ops| + |kws| + 4
      && (forall i :: 0 <= i < |ops| ==> rules[i] == FixedRule(true, ops[i]))
      && (forall i :: |ops| <= i < |ops| + |kws| ==> rules[i] == FixedRule(false, kws[i - |ops|]))
      && rules[|ops| + |kws|] == IdentRule
      && rules[|ops| + |kws| + 1] == IntRule
      && rules[|ops| + |kws| + 2] == FloatRule
      && rules[|ops| + |kws| + 3] == StringRule
  {
  }

  /** Index of the first rule in `rules` that does not mismatch at p, or |rules| if all do. */
  function Winner(rules: seq<Rule>, s: string, p: nat): (k: nat)
    requires p <= |s|
    ensures k <= |rules|
    ensures forall j :: 0 <= j < k ==> Apply(rules[j], s, p).NoMatch?
    ensures k < |rules| ==> !Apply(rules[k], s, p).NoMatch?
    decreases |rules|
  {
    if |rules| == 0 then 0
    else if Apply(rules[0], s, p).NoMatch? then 1 + Winner(rules[1..], s, p)
    else 0
  }

  /** The outcome of trying `rules` in order at p: the first outcome other than a mismatch. Each
      mismatching matcher has already moved the cursor back to p, so every rule starts at p.
      lexer_next tries the rules only after char_skip stopped at a character, so p < |s|. */
  function FirstMatch(rules: seq<Rule>, s: string, p: nat): (r: Lexeme)
    requires p < |s|
    ensures r.Match? ==> p <= r.next <= |s|
  {
    var k := Winner(rules, s, p);
    if k == |rules| then NoMatch else Apply(rules[k], s, p)
  }

  /** The cascade mismatches exactly when every rule does; otherwise its outcome is that of the
      first rule that does not mismatch. */
  lemma FirstMatchMisses(rules: seq<Rule>, s: string, p: nat)
    requires p < |s|
    ensures FirstMatch(rules, s, p).NoMatch? <==>
      forall k :: 0 <= k < |rules| ==> Apply(rules[k], s, p).NoMatch?
    ensures forall k ::
      (0 <= k < |rules| && !Apply(rules[k], s, p).NoMatch? &&
       forall j :: 0 <= j < k ==> Apply(rules[j], s, p).NoMatch?) ==>
      FirstMatch(rules, s, p) == Apply(rules[k], s, p)
  {
  }

  /** The characters a fixed-spelling matcher has compared before it matched or ran out of input
      all agreed with the spelling. */
  lemma KeywordAgrees(s: string, p: nat, isOp: bool, key: string, kind: string)
    requires p <= |s|
    ensures var r := Keyword(s, p, isOp, key, kind);
      && (r.Match? ==> p + |key| <= |s| && forall m :: 0 <= m < |key| ==> s[p + m] == key[m])
      && (r.Fatal? ==> |s| - p < |key| && forall m :: 0 <= m < |s| - p ==> s[p + m] == key[m])
  {
    var r := Keyword(s, p, isOp, key, kind);
    if r.Match? {
      forall m | 0 <= m < |key|
        ensures s[p + m] == key[m]
      {
        assert s[p..p + |key|][m] == s[p + m];
      }
    } else if r.Fatal? {
      forall m | 0 <= m < |s| - p
        ensures s[p + m] == key[m]
      {
        assert s[p..][m] == s[p + m];
      }
    }
  }

  /** A fixed spelling whose first character differs from the input's never applies. */
  lemma FixedMismatch(s: string, p: nat, isOp: bool, key: string, kind: string)
    requires p < |s| && |key| > 0 && s[p] != key[0]
    ensures Keyword(s, p, isOp, key, kind).NoMatch?
  {
    KeywordAgrees(s, p, isOp, key, kind);
  }

  /** Operators never apply at a letter, digit or underscore. */
  lemma OperatorsMismatch(ops: seq<Entry>, kws: seq<Entry>, s: string, p: nat)
    requires SymbolTable(ops)
    requires p < |s| && IsAlphaNum(s[p])
    ensures forall i :: 0 <= i < |ops| ==> Apply(RulesOf(ops, kws)[i], s, p).NoMatch?
  {
    RulesLayout(ops, kws);
    OperatorStartsAreSymbols();
    forall i | 0 <= i < |ops|
      ensures Apply(RulesOf(ops, kws)[i], s, p).NoMatch?
    {
      FixedMismatch(s, p, true, ops[i].spelling, ops[i].kind);
    }
  }

  /** Among operators the longest one present at p wins: if an operator spelling is a prefix of
      the remaining input, the winning rule is an operator listed no later than it, and a winning
      match consumes at least as many characters. */
  lemma LongestOperatorWins(ops: seq<Entry>, kws: seq<Entry>, s: string, p: nat, j: nat)
    requires LongerFirst(ops)
    requires p < |s| && j < |ops|
    requires IsPrefix(ops[j].spelling, s[p..])
    ensures Winner(RulesOf(ops, kws), s, p) <= j
    ensures !FirstMatch(RulesOf(ops, kws), s, p).NoMatch?
    ensures FirstMatch(RulesOf(ops, kws), s, p).Match? ==>
      var k := Winner(RulesOf(ops, kws), s, p);
      && FirstMatch(RulesOf(ops, kws), s, p) == Match(Fixed(ops[k].kind), p + |ops[k].spelling|)
      && |ops[k].spelling| >= |ops[j].spelling|
  {
    var rules := RulesOf(ops, kws);
    RulesLayout(ops, kws);
    var w := ops[j].spelling;
    assert s[p..][..|w|] == s[p..p + |w|];
    assert Apply(rules[j], s, p).Match?;
    var k := Winner(rules, s, p);
    if FirstMatch(rules, s, p).Match? {
      var v := ops[k].spelling;
      assert Keyword(s, p, true, v, ops[k].kind).Match?;
      NoShorterFirst(ops, s, p, k, j);
    }
  }

  /** An operator listed no later than another that is present at p, and itself present at p, is
      at least as long. */
  lemma NoShorterFirst(ops: seq<Entry>, s: string, p: nat, k: nat, j: nat)
    requires LongerFirst(ops) && k <= j < |ops| && p <= |s|
    requires p + |ops[k].spelling| <= |s| && s[p..p + |ops[k].spelling|] == ops[k].spelling
    requires IsPrefix(ops[j].spelling, s[p..])
    ensures |ops[k].spelling| >= |ops[j].spelling|
  {
    var v, w := ops[k].spelling, ops[j].spelling;
    if |v| < |w| {
      ShorterIsPrefix(s, p, v, w);
      assert false;
    }
  }

  /** Of two spellings present at p, the shorter is a prefix of the longer. */
  lemma ShorterIsPrefix(s: string, p: nat, v: string, w: string)
    requires p + |v| <= |s| && s[p..p + |v|] == v
    requires p <= |s| && IsPrefix(w, s[p..]) && |v| < |w|
    ensures IsPrefix(v, w)
  {
    assert w[..|v|] == s[p..][..|v|];
  }

  /** A keyword followed by a character that cannot continue an identifier is lexed as that
      keyword, never as an identifier: the winning rule is a keyword with exactly this spelling. */
  lemma KeywordBeatsIdentifier(ops: seq<Entry>, kws: seq<Entry>, s: string, p: nat, j: nat)
    requires SymbolTable(ops) && WordTable(kws)
    requires j < |kws|
    requires var w := kws[j].spelling;
      p + |w| < |s| && s[p..p + |w|] == w && !IsAlphaNum(s[p + |w|])
    ensures var k := Winner(RulesOf(ops, kws), s, p);
      && |ops| <= k < |ops| + |kws|
      && kws[k - |ops|].spelling == kws[j].spelling
      && FirstMatch(RulesOf(ops, kws), s, p)
         == Match(Fixed(kws[k - |ops|].kind), p + |kws[j].spelling|)
  {
    var rules := RulesOf(ops, kws);
    RulesLayout(ops, kws);
    var w := kws[j].spelling;
    KeywordAgrees(s, p, false, w, kws[j].kind);
    assert s[p..p + |w|][0] == s[p];
    OperatorsMismatch(ops, kws, s, p);
    assert Apply(rules[|ops| + j], s, p).Match?;
    var k := Winner(rules, s, p);
    var v := kws[k - |ops|].spelling;
    assert IsAlpha(w[0]);
    assert |ops| <= k < |ops| + |kws|;
    assert Keyword(s, p, false, v, kws[k - |ops|].kind).Match?;
    SameWordAtBoundary(s, p, v, w);
  }

  /** Two words of letters that both appear at p and are both followed by a character that
      cannot continue an identifier (or by the end of input) are the same word. */
  lemma SameWordAtBoundary(s: string, p: nat, v: string, w: string)
    requires IsWord(v) && IsWord(w)
    requires p + |v| <= |s| && s[p..p + |v|] == v
    requires p + |v| == |s| || !IsAlphaNum(s[p + |v|])
    requires p + |w| < |s| && s[p..p + |w|] == w && !IsAlphaNum(s[p + |w|])
    ensures v == w
  {
  }

  /** A maximal identifier run that spells no keyword is lexed as an identifier, provided a
      character follows it: "ifx" is an identifier even though "if" is a keyword. */
  lemma IdentifierWhenNotKeyword(ops: seq<Entry>, kws: seq<Entry>, s: string, p: nat)
    requires SymbolTable(ops) && WordTable(kws)
    requires p < |s| && IsAlpha(s[p])
    requires var e := RunEnd(s, p, IsAlphaNum);
      && e < |s| && e - p <= MaxStrLen
      && forall i :: 0 <= i < |kws| ==> kws[i].spelling != s[p..e]
    ensures var e := RunEnd(s, p, IsAlphaNum);
      && Winner(RulesOf(ops, kws), s, p) == |ops| + |kws|
      && FirstMatch(RulesOf(ops, kws), s, p) == Match(Ident(s[p..e]), e)
  {
    var rules := RulesOf(ops, kws);
    RulesLayout(ops, kws);
    var e := RunEnd(s, p, IsAlphaNum);
    OperatorsMismatch(ops, kws, s, p);
    forall i | |ops| <= i < |ops| + |kws|
      ensures Apply(rules[i], s, p).NoMatch?
    {
      KeywordInsideRun(s, p, e, kws[i - |ops|]);
    }
    RunEndUnique(s, p + 1, IsAlphaNum, e);
  }

  /** A keyword rule at the start of a maximal identifier run mismatches unless it spells the
      whole run. */
  lemma KeywordInsideRun(s: string, p: nat, e: nat, kw: Entry)
    requires IsWord(kw.spelling)
    requires p < e < |s| && e == RunEnd(s, p, IsAlphaNum)
    requires kw.spelling != s[p..e]
    ensures Keyword(s, p, false, kw.spelling, kw.kind).NoMatch?
  {
    KeywordAgrees(s, p, false, kw.spelling, kw.kind);
  }

  /** Integer/float disambiguation at a digit: no operator, keyword or identifier applies, so the
      outcome is the integer matcher's unless it declines (a digit run followed by '.' or 'f'),
      and then the float matcher's, which never declines in that case. */
  lemma NumberDisambiguation(ops: seq<Entry>, kws: seq<Entry>, s: string, p: nat)
    requires SymbolTable(ops) && WordTable(kws)
    requires p < |s| && IsNum(s[p])
    ensures FirstMatch(RulesOf(ops, kws), s, p)
      == (if Integer(s, p).NoMatch? then Float(s, p) else Integer(s, p))
    ensures Integer(s, p).NoMatch? ==> !Float(s, p).NoMatch?
  {
    var rules := RulesOf(ops, kws);
    RulesLayout(ops, kws);
    OperatorsMismatch(ops, kws, s, p);
    forall i | |ops| <= i < |ops| + |kws|
      ensures Apply(rules[i], s, p).NoMatch?
    {
      FixedMismatch(s, p, false, kws[i - |ops|].spelling, kws[i - |ops|].kind);
    }
  }

  /** At a character that starts no operator, keyword, identifier, number or string, every rule
      mismatches, and lexer_next returns no token without a fatal error. */
  lemma NoRuleApplies(ops: seq<Entry>, kws: seq<Entry>, s: string, p: nat)
    requires SymbolTable(ops) && WordTable(kws)
    requires p < |s| && s[p] !in OperatorStarts && !IsAlphaNum(s[p]) && s[p] != '"'
    ensures FirstMatch(RulesOf(ops, kws), s, p) == NoMatch
  {
    var rules := RulesOf(ops, kws);
    RulesLayout(ops, kws);
    forall i | 0 <= i < |ops| + |kws|
      ensures Apply(rules[i], s, p).NoMatch?
    {
      var e := if i < |ops| then ops[i] else kws[i - |ops|];
      FixedMismatch(s, p, i < |ops|, e.spelling, e.kind);
    }
  }

  /** At a double quote every operator, keyword, identifier and number rule mismatches, so the
      outcome is the string matcher's, including its fatal conditions. */
  lemma StringAtQuote(ops: seq<Entry>, kws: seq<Entry>, s: string, p: nat)
    requires SymbolTable(ops) && WordTable(kws)
    requires p < |s| && s[p] == '"'
    ensures FirstMatch(RulesOf(ops, kws), s, p) == StringLiteral(s, p)
  {
    var rules := RulesOf(ops, kws);
    RulesLayout(ops, kws);
    forall i | 0 <= i < |ops| + |kws|
      ensures Apply(rules[i], s, p).NoMatch?
    {
      var e := if i < |ops| then ops[i] else kws[i - |ops|];
      if i < |ops| {
        OperatorStartsAreSymbols();
      }
      FixedMismatch(s, p, i < |ops|, e.spelling, e.kind);
    }
  }

  /** The tables of lang/sc.c meet the conditions of the lemmas above. */
  lemma SourceTables()
    ensures LongerFirst(Operators) && SymbolTable(Operators) && WordTable(Keywords)
  {
    OperatorsLongerFirst();
    OperatorsAreSymbols();
    KeywordsAreWords();
  }
}

=== FILE: stack.dfy ===
/** The singly linked LIFO stack of lang/sc.c (stack_new, stack_push, stack_pop), as a sequence
    whose element 0 is the top. */
module Stack {
  import opened Wrappers

  /** stack_push: the new object becomes the top. stack_new is the push onto an empty stack. */
  function Push<T>(s: seq<T>, x: T): seq<T> {
    [x] + s
  }

  /** stack_pop: removes and returns the top, or returns nothing and leaves an empty stack alone. */
  function Pop<T>(s: seq<T>): (r: (Option<T>, seq<T>))
    ensures |s| == 0 <==> r.0.None?
    ensures r.0.None? ==> r.1 == s
    ensures r.0.Some? ==> Push(r.1, r.0.value) == s
  {
    if |s| == 0 then (None, s) else (Some(s[0]), s[1..])
  }

  /** Popping right after a push returns the pushed object and restores the stack. */
  lemma PushThenPop<T>(s: seq<T>, x: T)
    ensures Pop(Push(s, x)) == (Some(x), s)
  {
  }

  /** The order in which the objects of a stack segment come back when they are popped one by one
      and pushed onto another stack. */
  function Reverse<T>(s: seq<T>): (r: seq<T>)
    ensures |r| == |s|
    ensures forall i :: 0 <= i < |s| ==> r[i] == s[|s| - 1 - i]
  {
    if |s| == 0 then [] else Reverse(s[1..]) + [s[0]]
  }

  /** Reversing twice gives the original sequence back. */
  lemma ReverseReverse<T>(s: seq<T>)
    ensures Reverse(Reverse(s)) == s
  {
  }
}

=== FILE: tokens.dfy ===
/** Tokens and the fixed-spelling tables of lang/sc.c (KEYWORD_LIST, OP_LIST, enum token_type_e). */
module Tokens {
  import opened Chars

  /** token_t. Keyword and operator tokens carry no payload in the source; here they carry the name
      of their enum member. Numeric payloads are kept exact: the integer value is unbounded and a
      float keeps its digit strings instead of a floating-point value. */
  datatype Token =
    | Ident(name: string)
    | IntLit(value: nat)
    | FloatLit(whole: string, fraction: string)
    | StrLit(text: string)
    | Fixed(kind: string)

  /** One X(kind, spelling) line of KEYWORD_LIST or OP_LIST. */
  datatype Entry = Entry(kind: string, spelling: string)

  /** KEYWORD_LIST, in source order. */
  const Keywords: seq<Entry> := [
    Entry("BREAK", "break"),
    Entry("CASE", "case"),
    Entry("CONST", "const"),
    Entry("CONTINUE", "continue"),
    Entry("ELSE", "else"),
    Entry("ELIF", "elif"),
    Entry("IF", "if"),
    Entry("WHILE", "while"),
    Entry("SIZEOF", "sizeof"),
    Entry("VOID", "void")
  ]

  /** The first three lines of OP_LIST: the three-character operators. */
  const TripleOps: seq<Entry> := [
    Entry("ELLIPSIS", "..."),
    Entry("RIGHT_ASSIGN", ">>="),
    Entry("LEFT_ASSIGN", "<<=")
  ]

  /** The next nineteen lines of OP_LIST: the two-character operators. */
  const DoubleOps: seq<Entry> := [
    Entry("ADD_ASSIGN", "+="),
    Entry("SUB_ASSIGN", "-="),
    Entry("MUL_ASSIGN", "*="),
    Entry("DIV_ASSIGN", "/="),
    Entry("MOD_ASSIGN", "%="),
    Entry("AND_ASSIGN", "&="),
    Entry("XOR_ASSIGN", "^="),
    Entry("OR_ASSIGN", "|="),
    Entry("RIGHT_OP", ">>"),
    Entry("LEFT_OP", "<<"),
    Entry("INC_OP", "++"),
    Entry("DEC_OP", "--"),
    Entry("PTR_OP", "->"),
    Entry("AND_OP", "&&"),
    Entry("OR_OP", "||"),
    Entry("LE_OP", "<="),
    Entry("GE_OP", ">="),
    Entry("EQ_OP", "=="),
    Entry("NE_OP", "!=")
  ]

  /** The last twenty-four lines of OP_LIST: the one-character operators. */
  const SingleOps: seq<Entry> := [
    Entry("SEMICOLON", ";"),
    Entry("L_C_B", "{"),
    Entry("R_C_B", "}"),
    Entry("L_R_B", "("),
    Entry("R_R_B", ")"),
    Entry("L_S_B", "["),
    Entry("R_S_B", "]"),
    Entry("COMMA", ","),
    Entry("COLON", ":"),
    Entry("EQUALS", "="),
    Entry("DOT", "."),
    Entry("AND", "&"),
    Entry("NOT", "!"),
    Entry("BIT_NOT", "~"),
    Entry("PLUS", "+"),
    Entry("MINUS", "-"),
    Entry("ASTERIX", "*"),
    Entry("DIV", "/"),
    Entry("MOD", "%"),
    Entry("LESS", "<"),
    Entry("GREATER", ">"),
    Entry("BIT_XOR", "^"),
    Entry("BIT_OR", "|"),
    Entry("QUESTION", "?")
  ]

  /** OP_LIST, in source order. */
  const Operators: seq<Entry> := TripleOps + DoubleOps + SingleOps

  /** a is a prefix of b. */
  predicate IsPrefix(a: string, b: string) {
    |a| <= |b| && b[..|a|] == a
  }

  /** Whenever the spelling of one entry is a proper prefix of another's, the longer entry is
      listed first. */
  ghost predicate LongerFirst(table: seq<Entry>) {
    forall i, j :: 0 <= i < j < |table| ==>
      !(|table[i].spelling| < |table[j].spelling| && IsPrefix(table[i].spelling, table[j].spelling))
  }

  /** Each operator group has one spelling length: three, two and one characters. */
  lemma TripleOpsLength()
    ensures forall i :: 0 <= i < |TripleOps| ==> |TripleOps[i].spelling| == 3
  {
  }

  lemma DoubleOpsLength()
    ensures forall i :: 0 <= i < |DoubleOps| ==> |DoubleOps[i].spelling| == 2
  {
  }

  lemma SingleOpsLength()
    ensures forall i :: 0 <= i < |SingleOps| ==> |SingleOps[i].spelling| == 1
  {
  }

  /** The spelling length of the i-th line of OP_LIST, read off its group. */
  function LengthBand(i: nat): nat {
    if i < |TripleOps| then 3 else if i < |TripleOps| + |DoubleOps| then 2 else 1
  }

  lemma OperatorLength(i: nat)
    requires i < |Operators|
    ensures |Operators[i].spelling| == LengthBand(i)
  {
    TripleOpsLength();
    DoubleOpsLength();
    SingleOpsLength();
    var a, b := |TripleOps|, |TripleOps| + |DoubleOps|;
    if i < a {
      assert Operators[i] == TripleOps[i];
    } else if i < b {
      assert Operators[i] == DoubleOps[i - a];
    } else {
      assert Operators[i] == SingleOps[i - b];
    }
  }

  /** OP_LIST lists a longer operator before every operator that is a proper prefix of it,
      so "first listed match" is "longest match" among operators. */
  lemma OperatorsLongerFirst()
    ensures LongerFirst(Operators)
  {
    forall i, j | 0 <= i < j < |Operators|
      ensures |Operators[i].spelling| >= |Operators[j].spelling|
    {
      OperatorLength(i);
      OperatorLength(j);
    }
  }

  /** The characters the spellings of OP_LIST start with. */
  const OperatorStarts: set<char> :=
    {'.', '>', '<', '+', '-', '*', '/', '%', '&', '^', '|', '=', '!',
     ';', '{', '}', '(', ')', '[', ']', ',', ':', '~', '?'}

  /** No identifier, number or string literal starts with an operator character. */
  lemma OperatorStartsAreSymbols()
    ensures forall c :: c in OperatorStarts ==> !IsAlphaNum(c) && c != '"'
  {
  }

  /** A non-empty spelling that starts with an operator character. */
  predicate IsSymbol(w: string) {
    |w| > 0 && w[0] in OperatorStarts
  }

  lemma TripleOpsSymbols()
    ensures forall i :: 0 <= i < |TripleOps| ==> IsSymbol(TripleOps[i].spelling)
  {
  }

  lemma DoubleOpsSymbols()
    ensures forall i :: 0 <= i < |DoubleOps| ==> IsSymbol(DoubleOps[i].spelling)
  {
  }

  lemma SingleOpsSymbols()
    ensures forall i :: 0 <= i < |SingleOps| ==> IsSymbol(SingleOps[i].spelling)
  {
  }

  /** Every operator spelling is non-empty and starts with a character that cannot start a
      keyword, identifier, number or string literal. */
  lemma OperatorsAreSymbols()
    ensures forall i :: 0 <= i < |Operators| ==> IsSymbol(Operators[i].spelling)
  {
    TripleOpsSymbols();
    DoubleOpsSymbols();
    SingleOpsSymbols();
    var a, b := |TripleOps|, |TripleOps| + |DoubleOps|;
    forall i | 0 <= i < |Operators|
      ensures IsSymbol(Operators[i].spelling)
    {
      if i < a {
        assert Operators[i] == TripleOps[i];
      } else if i < b {
        assert Operators[i] == DoubleOps[i - a];
      } else {
        assert Operators[i] == SingleOps[i - b];
      }
    }
  }

  /** A non-empty word of identifier-start characters. */
  predicate IsWord(w: string) {
    |w| > 0 && forall k :: 0 <= k < |w| ==> IsAlpha(w[k])
  }

  /** Every keyword is a non-empty word of letters. */
  lemma KeywordsAreWords()
    ensures forall i :: 0 <= i < |Keywords| ==> IsWord(Keywords[i].spelling)
  {
  }
}

=== FILE: wrappers.dfy ===
/** Small failure-carrying datatypes shared by the lexer model. */
module Wrappers {

  /** A value that may be absent; stands for the source's nullable pointers. */
  datatype Option<+T> = None | Some(value: T)

  /** Either a value or an error. */
  datatype Result<+T, +E> = Success(value: T) | Failure(error: E)
}
